=== FILE: README.md ===
# LitConnector core, modelled in Dafny

LitConnector turns a table of literature records into a co-occurrence network. Each record has a `Refid`, a title, an abstract and one column per category label. The pipeline:

- normalises every single-valued label column into a 0/1 presence flag;
- collapses the rows of one record into one row;
- filters records by the labels the user selects;
- mines the frequent labels and label pairs;
- draws a node for every frequent label and an edge for every pair that at least two records share;
- builds a table of pairwise association rules, with support, lift, leverage, pointwise mutual information and row counts.

The model states this pipeline over immutable tables. It also covers the application helpers around it: upload validation, the readiness check, the flattening of grouped filter selections, the filter cache, the node-pair view, and the rule lookup for a selected pair.

Modules, one per file:

- `Tables` (`tables.dfy`): the frame, with cells that are missing, a number or text; row selection by mask and by predicate; projection onto columns; and the `KeyError` a missing label raises.
- `CellOrder` (`cell_order.dfy`): the order `groupby` sorts keys by and `max()` compares cells by.
- `Flags` (`flags.dfy`): `convert_cols_zero_one`.
- `Grouping` (`grouping.dfy`): `prep_dataset` and `preprocess_data`.
- `Filters` (`filters.dfy`): `filter_and_or`, `filter_all` and `apply_filters`, from both `src/data_processing.py` and `src/data_filtering.py` (the two copies are identical).
- `EdgeColors` (`edge_colors.dfy`): `create_edge_color_map` and `get_edge_color`, in both of their copies.
- `Itemsets` (`itemsets.dfy`): the itemset miner, specified by its definition. The support of an itemset is the fraction of rows holding 1 in every member column. `int(support * rows)` truncates toward zero.
- `Network` (`network.dfy`): node and edge selection in `create_network`.
- `Rules` (`rules.dfy`): `return_assoc_rules` and `network_tabular`.
- `App` (`app.py`'s own logic, in `app.dfy`): `validate_file`, the required-files check, filter flattening, the filter cache, the node-pair view, the `cols_ar` column list and the rule lookup.

Errors that the source raises become a `Result`:

- `KeyError` when a label names no column.
- The miner's refusal of non-0/1 cells and of a non-positive threshold.
- The rule generator's refusal of an empty itemset table.

The natural logarithm is a function parameter `ln`. Supports are exact reals.

Two properties of the application stand out:

- **Filters across groups combine with OR, not AND.** The application flattens the per-group selections into one list before filtering (`App.AppFilterIsOr`). So `filter_all`'s AND across groups is never reached from the user interface. `App.OrAcrossGroupsDiffers` exhibits a record kept by the application that `filter_all` with the same groups would drop.
- **Filtering by a text column fails.** The selection offers every column but `Refid`, `Title` and `Abstract`, text columns such as `Chemical` included. A selected column that holds text has the object dtype, so the reduced mask holds cell values instead of booleans, and `df[mask]` fails with `KeyError` (`Filters.TagMask`, `App.TextColumnSelectionFails`).
- **Two source defects are listed under Findings.** Each has an as-written member and a corrected one:
  - the every-second-row dedup of the rule table;
  - the filter cache that survives a reload.

## Model

| member | source | states |
|---|---|---|
| Tables.Absent | src/app.py:172 | exactly the labels that are not columns, never more of them than were given; empty exactly when every label is a column |
| Tables.AbsentSingle | src/app.py:172 | one label is reported exactly when it is not a column |
| Tables.AbsentAppend | src/app.py:172 | the report for two label lists is the two reports concatenated, so absent labels keep their order and multiplicity |
| Tables.Restrict | src/data_processing.py:69 | a row cut to the given labels has exactly those keys and the original cells |
| Tables.Project | src/network_analysis.py:144 | `df[cols]` succeeds exactly when every label is a column, otherwise raises `KeyError` naming the absent ones; the result has the columns `cols` in that order, the same number of rows, and each row's original cells |
| Tables.Select | src/data_processing.py:109 | boolean-mask indexing keeps only input rows and never more of them |
| Tables.Where | src/data_processing.py:109 | the kept rows are exactly the input rows satisfying the predicate |
| Tables.SelectIsWhere | src/data_processing.py:104-109 | a mask computed row by row from a predicate selects exactly the rows that predicate keeps, in order |
| Tables.SelectAllTrue | src/data_processing.py:100-102 | an all-true mask keeps every row |
| Tables.WhereIdempotent | src/data_filtering.py:41 | filtering twice by the same predicate is filtering once |
| Tables.WhereAll | src/data_filtering.py:32-34 | a predicate every row satisfies keeps the rows unchanged |
| Tables.WhereCongruent | src/data_filtering.py:36-41 | predicates that agree on every row keep the same rows |
| Tables.WhereWhere | src/data_filtering.py:59-69 | filtering by one predicate and then another is filtering by their conjunction |
| CellOrder.Max | src/data_processing.py:59 | the larger of two cells is one of them and bounds both |
| CellOrder.TextIrreflexive | src/data_processing.py:59 | helper of `CellOrder.IrreflexiveCells`, on which `Grouping.ColumnMax` rests: no string sorts before itself |
| CellOrder.TextTransitive | src/data_processing.py:59 | helper of `CellOrder.TransitiveCells`, on which `Grouping.ColumnMax` rests: the string order is transitive |
| CellOrder.TextTotal | src/data_processing.py:59 | helper of `CellOrder.TotalCells`, on which `Grouping.ColumnMax` rests: any two distinct strings are ordered one way |
| CellOrder.IrreflexiveCells | src/data_processing.py:59 | no cell sorts before itself |
| CellOrder.TransitiveCells | src/data_processing.py:59 | the cell order is transitive |
| CellOrder.TotalCells | src/data_processing.py:59 | any two cells are equal or ordered one way |
| CellOrder.AsymmetricCells | src/data_processing.py:59 | no two cells sort before each other |
| CellOrder.LessEqTransitive | src/data_processing.py:59 | the non-strict cell order is transitive |
| Flags.FirstPresent | src/data_processing.py:43 | `dropna().unique()[0]` is a present cell of the column, and there is none exactly when every cell is missing |
| Flags.ConvertColumn | src/data_processing.py:42-45 | one step of the loop keeps the columns and the row count |
| Flags.ConvertColumnCell | src/data_processing.py:42-45 | one step rewrites only its own column: a present cell becomes 1 and a missing one 0 when the column has one distinct present value; every other cell is unchanged |
| Flags.ConvertColumnsCell | src/data_processing.py:41-45 | the loop over distinct columns rewrites exactly those columns, each judged on the original frame |
| Flags.Flagged | src/data_processing.py:42-45 | no contract of its own: the per-cell rule that `Flags.ConvertColumnCell` and `Flags.ConvertZeroOneCell` state the loop applies |
| Flags.ConvertColumns | src/data_processing.py:41-45 | the loop over columns keeps the column list and the row count; its cells are stated by `Flags.ConvertColumnsCell` |
| Flags.ConvertZeroOne | src/data_processing.py:31-46 | normalisation keeps the column list and the row count; its cells are stated by `Flags.ConvertZeroOneCell` |
| Flags.ConvertZeroOneCell | src/data_processing.py:31-46 | after normalisation a single-valued column holds 1 where the raw cell was present and 0 where it was missing, and every other column is unchanged |
| Flags.ConvertZeroOneShape | src/data_processing.py:31-46 | normalisation keeps the frame well formed |
| Flags.FlagColumnIsZeroOne | src/data_processing.py:42-45 | a converted column holds only 0 and 1, with 1 exactly where the raw column had a value |
| Flags.OtherColumnUnchanged | src/data_processing.py:42 | a column with no present value, or with two or more distinct ones, is untouched |
| Flags.IdempotentCell | src/data_processing.py:41-46 | normalising a normalised frame changes no cell |
| Flags.ConvertZeroOneIdempotent | src/data_processing.py:41-46 | normalisation is idempotent on well-formed frames |
| Grouping.Insert | src/data_processing.py:59 | adding a key to the sorted key list keeps it strictly increasing and adds exactly that key |
| Grouping.GroupKeys | src/data_processing.py:59 | the group keys are exactly the distinct present identifiers, strictly increasing |
| Grouping.ColumnMax | src/data_processing.py:59 | `max()` over a group is a cell of the group (or missing) and bounds every cell of the group |
| Grouping.MostFrequent | src/data_processing.py:60-62 | the chosen value occurs at least as often as every candidate |
| Grouping.ColumnMode | src/data_processing.py:60-62 | a categorical column's group value is missing exactly when all cells are missing, otherwise a most frequent present value |
| Grouping.PrepDataset | src/data_processing.py:48-70 | `KeyError` exactly when `Refid`, a categorical column or a requested node column is absent; without nodes the whole grouped frame, with nodes exactly the node columns |
| Grouping.Grouped | src/data_processing.py:59-65 | the grouped frame has the input's columns, distinct when the input's are, and one row per distinct present identifier; its cells are stated by `Grouping.GroupedIsMax`, `Grouping.GroupedIsMode` and `Grouping.GroupedId` |
| Grouping.PreprocessData | src/data_processing.py:17-29 | preprocessing fails exactly when `Refid` or a categorical column is absent, with a `KeyError` naming absent labels, and otherwise keeps the input's columns; its cells are stated by `Grouping.PreprocessTagsRecords` |
| Grouping.GroupedId | src/data_processing.py:59 | the grouped frame has one row per distinct identifier, and its `j`-th row belongs to the `j`-th smallest identifier |
| Grouping.GroupedWellFormed | src/data_processing.py:59-65 | the grouped frame is well formed |
| Grouping.RecordsIncrease | src/data_processing.py:59-65 | identifiers strictly increase down the grouped frame, so no record appears twice |
| Grouping.RecordsCovered | src/data_processing.py:59-65 | the grouped identifiers are exactly the input's present identifiers |
| Grouping.GroupedIsMax | src/data_processing.py:59 | a non-categorical cell of a record is the maximum of that record's cells: it bounds them all and is one of them unless missing |
| Grouping.FlagIsAnyMember | src/data_processing.py:59 | a 0/1 column collapses to 0/1, with 1 exactly when some row of the record holds 1 |
| Grouping.GroupedIsMode | src/data_processing.py:60-62 | a categorical cell of a record is a most frequent present value among the record's rows |
| Grouping.PreprocessTagsRecords | src/data_processing.py:17-29 | after preprocessing, a single-valued raw column is a 0/1 tag per record, 1 exactly when some row of the record had the value |
| Filters.Truthy | src/data_filtering.py:38-40 | no contract of its own: the truth of one cell as the reductions read it (missing is true, 0 and "" are false); `Filters.AllTruthyMeaning` and `Filters.AnyTruthyMeaning` connect it to the reductions, which reach a boolean mask only over numeric columns (see `Filters.TagMask`) |
| Filters.Passes | src/data_filtering.py:36-40 | no contract of its own: the reference meaning of the tag mask, which `Filters.TagMask` states the mask computes row by row |
| Filters.AllTruthyMeaning | src/data_filtering.py:38 | the AND reduction is true exactly when every named cell is truthy |
| Filters.AnyTruthyMeaning | src/data_filtering.py:40 | the OR reduction is true exactly when some named cell is truthy |
| Filters.AbsentEmpty | src/data_filtering.py:36 | `df[tags]` finds every label exactly when no label is absent |
| Filters.TagMask | src/data_filtering.py:32-45 | no tags gives an all-true mask; a non-empty tag list fails with `KeyError` naming the absent labels when a column is missing, and with `ObjectMask` when it names a text column and there are rows; over no rows such a list gives the empty object mask; otherwise one boolean per row, the AND for "and" and the OR for any other operator |
| Filters.FilterAndOr | src/data_processing.py:100-113 | no tags returns the frame itself; over numeric columns the frame keeps, in order, exactly the rows passing the mask; a tag naming a text column fails when there are rows and gives a frame without columns when there are none; it fails exactly when the mask does |
| Filters.ClassesCons | src/data_filtering.py:59-62 | the categorical specs hold on a row exactly when the first does (or is empty) and the rest do |
| Filters.FilterClasses | src/data_filtering.py:59-62 | the categorical loop fails exactly when a spec with categories names a missing column, and keeps the columns |
| Filters.FilterClassesKeeps | src/data_filtering.py:59-62 | the categorical loop keeps exactly the rows whose value is among the categories of every non-empty spec, in order |
| Filters.ClassesStep | src/data_filtering.py:61-62 | a spec with categories followed by the rest keeps the rows satisfying all of them |
| Filters.GroupsCons | src/data_filtering.py:64-68 | the multilabel groups hold on a row exactly when the first group's OR holds and the rest hold |
| Filters.CombinedMask | src/data_filtering.py:65-68 | the combined mask succeeds exactly when every non-empty group names present columns and either no group names a text column or there are no rows; it is the empty object mask exactly when a group names a text column, and otherwise the row-wise AND of the groups' OR-masks, one entry per row |
| Filters.FilterAll | src/data_processing.py:115-138 | `filter_all` succeeds exactly when every categorical spec and multilabel group names present columns and either no group names a column holding text in the input or no row survives the categorical specs; it keeps the columns, except that a text-naming group over no rows leaves none |
| Filters.FilterAllKeeps | src/data_processing.py:127-138 | a successful `filter_all` keeps exactly the rows satisfying every categorical spec and, in every multilabel group, some truthy column, in order; with no text-naming group the result is the input with just those rows |
| Filters.ApplyFilters | src/data_processing.py:72-83 | `apply_filters` succeeds exactly when the selection is empty, or names present columns and either names no text column or the frame has no rows; the error is `KeyError` for an absent column and `ObjectMask` otherwise; the columns are kept unless a text column is selected |
| Filters.ApplyFiltersKeeps | src/data_processing.py:83 | `apply_filters` keeps exactly the rows with some selected column truthy, or every row for no selection |
| Filters.FilterAllIdempotent | src/data_filtering.py:59-70 | with no text-naming group, filtering `filter_all`'s output again with the same specs changes nothing; with one, the first pass leaves a frame without columns and filtering it again fails |
| Filters.TextColumns | src/data_filtering.py:36 | a column is object-typed exactly when some row holds text in it |
| Filters.NumericCons | src/data_filtering.py:65 | helper: no group names a text column exactly when the first does not and the rest do not |
| Filters.TextColumnsWhere | src/data_filtering.py:62-69 | helper: dropping rows makes no further column object-typed |
| Filters.EmptyGroupNoOp | src/data_filtering.py:64-68 | an empty multilabel group leaves `filter_all` unchanged |
| EdgeColors.Put | src/data_processing.py:161-163 | one assignment sets the entry for its pair and leaves every other entry as it was |
| EdgeColors.GetEdgeColor | src/data_processing.py:184-186 | the stored colour for a held pair, "lightgrey" otherwise |
| EdgeColors.LastTouching | src/data_processing.py:155-168 | the reference meaning: none exactly when no row is about the unordered pair, else the style of a row about it after which no row is about it |
| EdgeColors.AddOption | src/data_processing.py:161-168 | one row adds its two entities as outer keys and stores its style under both orientations; `EdgeColors.AddOptionEntry` states that nothing else changes |
| EdgeColors.MentionsSnoc | src/data_processing.py:155-168 | helper of `EdgeColors.BuildColorMap`: a list of rows mentions an entity exactly when its prefix or its last row does |
| EdgeColors.BuildColorMap | src/data_processing.py:140-170 | the outer keys of the map are exactly the entities some row names; its entries are stated by `EdgeColors.BuildColorMapEntry` |
| EdgeColors.AddOptionEntry | src/data_processing.py:161-168 | one row of the file sets both orientations of its pair and nothing else |
| EdgeColors.BuildColorMapEntry | src/data_processing.py:140-170 | every entry of the map is the style of the last row about that unordered pair, absent when no row mentions it |
| EdgeColors.ColorMapSymmetric | src/data_processing.py:165-168 | the map holds the same style for `(a, b)` and `(b, a)` |
| EdgeColors.LastTouchingSymmetric | src/data_processing.py:155-168 | the last row about `{a, b}` does not depend on the order of `a` and `b` |
| EdgeColors.EdgeColorMeaning | src/app.py:196-228 | the looked-up colour is that of the last row about the pair, "lightgrey" when no row mentions it, the same in both orientations |
| Itemsets.Count | src/network_analysis.py:21-23 | the number of rows holding 1 in every member is at most the row count |
| Itemsets.Support | src/network_analysis.py:21-23 | support is a fraction in [0, 1] whose product with the row count is the count of rows holding 1 in every item |
| Itemsets.CountAntiMonotone | src/network_analysis.py:21-23 | a larger itemset is held by no more rows than a smaller one |
| Itemsets.CountSameMembers | src/network_analysis.py:21-23 | the count depends only on the set of members |
| Itemsets.FirstNonBinary | src/network_analysis.py:21-23 | there is a column with a cell other than 0 and 1 exactly when the frame is not binary, and it is one of the columns |
| Itemsets.Singles | src/network_analysis.py:21-23 | the mined single itemsets all have one member |
| Itemsets.PairsWith | src/network_analysis.py:21-23 | the pairs built with one column all have two members |
| Itemsets.Pairs | src/network_analysis.py:21-23 | the mined pair itemsets all have two members |
| Itemsets.Mine | src/network_analysis.py:21-23 | the miner fails exactly for a non-positive threshold or a cell other than 0/1, and finds nothing in an empty frame |
| Itemsets.SinglesMembers | src/network_analysis.py:21-23 | a single column is listed exactly when its support reaches the threshold, with that support |
| Itemsets.PairsWithMembers | src/network_analysis.py:21-23 | a pair with a fixed first column is listed exactly when the second follows it and their support reaches the threshold |
| Itemsets.PairsMembers | src/network_analysis.py:21-23 | a pair is listed exactly when its first column precedes its second and its support reaches the threshold |
| Itemsets.PairMembersFrequent | src/network_analysis.py:25-30 | a pair's support is at most each member's support |
| Itemsets.DivideMonotone | src/network_analysis.py:21-23 | helper of `Itemsets.PairMembersFrequent`: dividing by the same positive row count keeps the order of counts |
| Itemsets.Truncate | src/network_analysis.py:104-110 | `astype(int)` truncates toward zero: the result is within one of its argument, on the side of zero |
| Itemsets.TruncatedCount | src/network_analysis.py:104-110 | truncating support times rows recovers the exact row count |
| Network.NodeList | src/network_analysis.py:25-29 | the node list holds exactly the mined single itemsets |
| Network.Labels | src/network_analysis.py:26 | the node labels are the single members, in node-list order |
| Network.NodeId | src/network_analysis.py:30 | `node_dict[x]` is the position of the last node labelled `x` |
| Network.Edges | src/network_analysis.py:44-59 | every edge joins the listed node ids of its two members and carries the colour looked up for them |
| Network.EdgeOrigin | src/network_analysis.py:45-56 | every edge comes from a pair itemset over the threshold, with the same members and support; its count is the truncated support times rows, its colour the map's |
| Network.EdgeFromItemset | src/network_analysis.py:45-59 | every pair itemset over the edge threshold yields an edge with its members |
| Network.PairEndpointsAreNodes | src/network_analysis.py:25-30 | both members of a mined pair are node labels, so the `node_dict` lookups succeed |
| Network.FrequentColumnIsLabel | src/network_analysis.py:25-30 | a column whose support reaches the threshold labels a node |
| Network.MinedEndpointsAreNodes | src/network_analysis.py:47-52 | every mined pair has both endpoints among the nodes |
| Network.Nodes | src/network_analysis.py:32-42 | one node per single itemset, with its label, its support and the truncated count of its title |
| Network.CreateNetwork | src/network_analysis.py:9-76 | the graph is built exactly when the frame is 0/1, and every edge joins the node ids of its endpoints |
| Network.NodeListOfMined | src/network_analysis.py:25-29 | dropping the pairs from the mined list leaves the single itemsets |
| Network.NetworkParts | src/network_analysis.py:20-59 | on a non-empty 0/1 frame, the nodes come from the frequent single columns and the edges from the frequent pairs |
| Network.NodesOfSingles | src/network_analysis.py:25-42 | a node is named after a column exactly when that column's support reaches the threshold |
| Network.TitleCountIsCount | src/network_analysis.py:39 | `int(support * rows)` is the exact row count |
| Network.NodeCountOfSingles | src/network_analysis.py:39 | a node's title count is its column's row count |
| Network.NodeMeaning | src/network_analysis.py:25-42 | there is a node for a column exactly when the column's support reaches 0.00001 |
| Network.NodeCount | src/network_analysis.py:39 | a node's title count is the number of rows holding 1 in its column |
| Network.EdgeThreshold | src/network_analysis.py:46 | `support * rows > 1` holds exactly when at least two rows hold both members |
| Network.EdgeOfMined | src/network_analysis.py:45-55 | an edge's count is its pair's row count, at least 2; its first endpoint precedes its second among the columns; its support reaches the threshold |
| Network.MinedPairIsEdge | src/network_analysis.py:45-59 | every frequent ordered column pair shared by two rows is an edge |
| Network.EdgeCount | src/network_analysis.py:55 | an edge's title count is the number of rows holding both endpoints, at least 2 |
| Network.EdgeMeaning | src/network_analysis.py:44-59 | there is an edge from `a` to `b` exactly when `a` precedes `b` among the columns, at least two rows hold both, and their support reaches the threshold |
| Network.EdgeColorMeaningInNetwork | src/network_analysis.py:56 | an edge's colour is the map's in either orientation: that of the last options row about the pair, "lightgrey" when none |
| Rules.SupportPositive | src/network_analysis.py:97-99 | an itemset held by some row has positive support, so the `pmi` denominators are non-zero |
| Rules.MakeRule | src/network_analysis.py:95-110 | a rule has its one-member antecedent and consequent and the pair's support |
| Rules.GenerateRules | src/network_analysis.py:95 | every generated rule has a one-member antecedent and consequent; which rules are generated is stated by `Rules.GenerateRulesMembers` |
| Rules.GenerateRulesMembers | src/network_analysis.py:95 | a rule is generated exactly when it is one of the two orientations of a pair itemset, built from that pair's support |
| Rules.MinedPair | src/network_analysis.py:92-95 | helper of `Rules.GeneratedRuleCounts`: a mined pair carries the pair's support, at least the threshold |
| Rules.OrientationCounts | src/network_analysis.py:103-110 | helper of `Rules.GeneratedRuleCounts`: either orientation of a pair, built from the pair's support, carries the exact counts of its antecedent, consequent and pair |
| Rules.GeneratedRuleCounts | src/network_analysis.py:92-110 | every generated rule, before the sort, carries its pair's support (at least the threshold) and the exact row counts of its antecedent, its consequent and the pair |
| Rules.RuleTableCounts | src/network_analysis.py:92-122 | every row of `return_assoc_rules`' table is about a pair whose support reaches the threshold and is the row's `support`, and `entity_1_count`, `entity_2_count` and `co-occurrence_count` are the exact row counts of its antecedent, its consequent and the pair |
| Rules.CountOfFrequent | src/network_analysis.py:92-94 | helper of `Rules.MinedMembersOccur`: an itemset reaching a positive threshold occurs in some row |
| Rules.GeneratedRulesAdjacent | src/network_analysis.py:95 | the generated rules come in adjacent swapped blocks exactly when the pairs are distinct |
| Rules.RuleCounts | src/network_analysis.py:103-110 | the three counts are the exact row counts, and the co-occurrence count is at most either member count |
| Rules.RuleLiftIsPmiRatio | src/network_analysis.py:97-101 | the member supports are positive and `pmi` is the logarithm of the lift `support / (antecedent support * consequent support)` |
| Rules.LiftIsRatio | src/network_analysis.py:97-99 | helper of `Rules.RuleLiftIsPmiRatio` and `Rules.SwappedRulesAgree`: dividing by the two supports in turn is dividing by their product |
| Rules.SwappedRulesAgree | src/network_analysis.py:95-110 | the two orientations of a pair agree on support, lift, leverage, `pmi` and co-occurrence count, and swap their member supports and counts |
| Rules.MinedMembersOccur | src/network_analysis.py:92-95 | every member of a mined pair occurs in some row |
| Rules.Insert | src/network_analysis.py:122 | inserting a rule keeps the table in non-increasing count order and adds exactly that rule |
| Rules.InsertStep | src/network_analysis.py:122 | a rule with a larger count stays ahead of an insertion into the rest |
| Rules.SortByCount | src/network_analysis.py:122 | the sort is a permutation of its input, in non-increasing co-occurrence count |
| Rules.ReturnAssocRules | src/network_analysis.py:78-122 | fails exactly when the miner fails or finds nothing; otherwise the table is a permutation of the generated rules, in non-increasing count |
| Rules.KeepEverySecond | src/network_analysis.py:139 | `iloc[::2]` keeps ⌈n/2⌉ rows, row `i` being input row `2i` |
| Rules.EveryOtherIndex | src/network_analysis.py:139 | helper of `Rules.KeepEverySecond`: dropping two rows shifts every even position by two |
| Rules.DedupFrom | src/network_analysis.py:139 | the kept rules are input rules, with pairs pairwise distinct and none already seen |
| Rules.CanonicalDedup | src/network_analysis.py:139 | the kept rules are input rules with pairwise distinct unordered pairs |
| Rules.DedupCovers | src/network_analysis.py:139 | every unordered pair of the input keeps a row |
| Rules.DedupKeepsOrder | src/network_analysis.py:122-139 | deduplication keeps the count order |
| Rules.KeepEverySecondIsDedup | src/network_analysis.py:139 | when swapped rules are adjacent, keeping every second row is keeping the first row of each pair |
| Rules.AdjacentKeepsOnePerPair | src/network_analysis.py:139 | under adjacency every second row gives exactly one row per unordered pair, covering every pair |
| Rules.SampleKeys | src/network_analysis.py:139 | the sample table's rules are about the two distinct pairs `{A, B}` and `{C, D}` |
| Rules.GeneratedAdjacent | src/network_analysis.py:95 | the sample rules as generated are adjacent |
| Rules.InterleavedAdmissible | src/network_analysis.py:122 | the interleaved order is a permutation of the sample rules in non-increasing count, so a sort may return it |
| Rules.InterleavedDedup | src/network_analysis.py:139 | the corrected step keeps one row for each sample pair |
| Rules.KeepEverySecondCounterexample | src/network_analysis.py:139 | on an admissible sort order, every second row keeps `{A, B}` twice and drops `{C, D}`, while the corrected step keeps one row of each |
| Rules.SampleRule | src/network_analysis.py:95 | a sample rule is about the given pair, with count 2 |
| Rules.TabularRules | src/network_analysis.py:136-139 | the corrected rows: the first of each unordered pair, pairwise distinct, in count order; an error exactly when the rule table fails |
| Rules.TabularRulesCover | src/network_analysis.py:139 | every pair of the rule table keeps a row in the corrected table |
| Rules.TabularRulesAsWritten | src/network_analysis.py:136-139 | as written: an error exactly when the rule table fails; otherwise half the rule table rounded up, row `i` being row `2i` of the sorted table |
| Rules.AsWrittenAgreesWhenAdjacent | src/network_analysis.py:139 | the as-written and corrected rows agree whenever swapped rules are adjacent after the sort |
| Rules.Field | src/network_analysis.py:112-120 | a rule has a cell under exactly the renamed column names |
| Rules.Tabulate | src/network_analysis.py:141-144 | projection onto `cols_ar` succeeds exactly when every label names a column, else `KeyError` with the absent ones; each row has exactly those columns, and `entity_1`/`entity_2` are the single members |
| Rules.SortedRulesShape | src/network_analysis.py:141-142 | every sorted rule has a one-member antecedent and consequent, so unwrapping is defined |
| Rules.NetworkTabular | src/network_analysis.py:124-146 | one row per kept rule, an error exactly when the rules fail or a column is unknown; row `i` holds exactly the requested columns, each the cell of the `i`-th kept rule |
| Rules.TabularRuleInTable | src/network_analysis.py:136-139 | helper of `Rules.NetworkTabularCounts`: every kept rule is a row of the rule table |
| Rules.KeptRuleCounts | src/network_analysis.py:103-139 | helper of `Rules.NetworkTabularCounts`: a kept rule carries the exact counts of its two entities and of their pair |
| Rules.RowFields | src/network_analysis.py:141-144 | helper of `Rules.NetworkTabularCounts`: a tabulated row's entity and count cells are its rule's members and counts |
| Rules.NetworkTabularCounts | src/network_analysis.py:103-146 | in `network_tabular`'s table, `entity_1_count`, `entity_2_count` and `co-occurrence_count` are the exact numbers of rows holding `entity_1`, `entity_2` and both |
| Rules.NetworkTabularAsWritten | src/network_analysis.py:124-146 | as written: an error exactly when the rules fail or a column is unknown; otherwise half the sorted rule table rounded up, row `i` holding exactly the requested columns, each cell the field of row `2i` of the sorted table |
| App.ValidateFile | src/app.py:147-178 | an unknown file type is reported without a column check; otherwise the missing columns are reported (non-empty, exactly the required ones not in the header), and success exactly when all required columns are present; the reported list is the `Absent` report of the required list, so it keeps the required order |
| App.ValidateKnownFiles | src/app.py:160-167 | the record file validates exactly with `Refid`, `Title` and `Abstract`; the edge options file needs all four of its columns; an unlisted type is unknown |
| App.AllUploaded | src/app.py:124 | `all(...)` is true exactly when every required slot holds a file |
| App.ReadyToCreate | src/app.py:122-133 | "Create Network" proceeds exactly when the record file and the network config file are both uploaded |
| App.Flatten | src/app.py:269-271 | the selection holds exactly the items selected in some group |
| App.SelectableColumns | src/app.py:273-277 | the offered columns are exactly the frame's columns other than `Refid`, `Title` and `Abstract` |
| App.AppFilterIsOr | src/app.py:262-290 | the application keeps a record exactly when some column selected in some group is truthy on it, or every record when nothing is selected |
| App.TextColumnSelectionFails | src/app.py:272-277 | a text column is offered for selection, and filtering a frame with a row of text by it fails with `ObjectMask` |
| App.OrAcrossGroupsDiffers | src/app.py:269-271 | a record tagged with only the first of two groups' selections is kept by the application but dropped by `filter_all` with the same groups |
| App.RefreshFilter | src/app.py:281-288 | the cached filtered frame is reused when the selection is unchanged, otherwise recomputed from the current frame; the new selection is stored |
| App.RefreshKeepsCacheValid | src/app.py:281-290 | a cache that matches its frame and selection still matches after the filter step, and the frame used is the filtering of the current frame |
| App.LoadFrameAsWritten | src/app.py:130 | loading files replaces the preprocessed frame and keeps the cached filtered frame and selection |
| App.LoadFrame | src/app.py:130 | the corrected load step for lines 130 and 143: loading drops the cached filtered frame, which leaves a cache consistent with the new frame |
| App.LoadThenRefresh | src/app.py:281-290 | with the cache dropped on load, the filtered frame is always the filtering of the newly loaded frame |
| App.StaleFilterCounterexample | src/app.py:281-290 | as written, after a reload with an unchanged selection the filter step keeps the first frame's rows instead of the second frame's |
| App.SelectNodePair | src/app.py:297-300 | a blank node keeps every filtered record; otherwise the records with 1 in both node columns, and `KeyError` when a node names no column |
| App.NodePairMeaning | src/app.py:300 | a record is in the pair view exactly when it is a filtered record with 1 in both node columns |
| App.AppColumnsExist | src/app.py:241-251 | every column of `cols_ar` is a column of the rule table, so its projection succeeds |
| App.Matching | src/app.py:311 | the matching rows are exactly the table rows oriented from `node1` to `node2` |
| App.LookupRule | src/app.py:311-315 | the `(node1, node2)` rows when there is exactly one, otherwise the `(node2, node1)` rows |
| App.MatchingNone | src/app.py:311 | a filter no row passes returns nothing |
| App.MatchingSingle | src/app.py:311 | a filter exactly one row passes returns that row |
| App.LookupFindsPair | src/app.py:310-315 | on a table with one row per unordered pair, looking up two distinct nodes returns exactly their pair's row in either stored orientation |
| App.TabulatePairs | src/network_analysis.py:141-144 | a tabulated row's `entity_1`/`entity_2` are the pair of the rule it came from |
| App.NetworkTabularPairsDistinct | src/app.py:310 | the corrected rule table has one row per unordered pair |

## Left out

- `src/file_utils.py`: temporary-file writing, default-file discovery and RIS export are file I/O and a foreign serialiser; it is not part of this model.
- CSV reading (`load_data`, `pd.read_csv`) and the read errors that `validate_file`'s caller reports are I/O. A frame is a parameter and a header is a list of labels.
- Streamlit widgets and session plumbing: radio buttons, uploads, download buttons, zip building, spinners and layout. The session is modelled only as the frame, the cached filtered frame and the stored selection that the filter step reads and writes.
- The edge legend and the metrics and table display after the network (`src/app.py` from line 317) are presentation only.
- Rendering (`Node`/`Edge`/`Config`, `agraph`, node size `support * 50`, titles as text) is left out. The graph keeps each node's id, label, support and title count, and each edge's endpoints, support, title count and colour.
- The miner's internals (search order, pruning, conviction and the other library metrics) are left out. Itemsets are specified by definition. Singles are listed in column order, followed by pairs ordered by first column, then second.
- Itemsets.FirstNonBinary: the model's error names the first offending column in column order. The library's input check rejects exactly the same frames, but its message names an offending value, the first in row-major order.
- Rules.Tabulate: the rule table holds only the twelve columns of `Rules.RuleColumns`. Projecting onto a further library metric column (`conviction`, `zhangs_metric` and the like) succeeds in the source but gives `KeyError` in the model. `network_tabular`'s own column list names none of them.
- `return_assoc_rules`'s `sort_by` and `max_len` are fixed to the values `network_tabular` passes (`"co-occurrence_count"`, 2). The network path uses `max_len=2` as well.
- Floating point and `math.log`: supports, lift and leverage are exact reals, and `ln` is a parameter.
- Itemsets.TruncatedCount: holds over exact reals. With IEEE doubles, `int(count / rows * rows)` can come out one below the count (29 of 100 rows gives 28.999…), which the model cannot show.
- Rules.SortByCount: the source's sort is unstable, and the model fixes one admissible order, a stable insertion sort. The dedup lemmas (`KeepEverySecondIsDedup`, `AdjacentKeepsOnePerPair`, `KeepEverySecondCounterexample`) are stated over any order in non-increasing count.
- Frozenset iteration order (`next(iter(...))`, `list(...)[1]`) is modelled as column order: a pair's first member is the earlier column.
- Grouping.GroupedIsMode: states only that the value is among the most frequent. On ties, pandas' `mode` returns an array of all tied values; the model picks the first of them. For a record whose categorical cells are all missing, `mode` returns an empty array; the model gives a missing cell, as `Grouping.ColumnMode` states.
- `prep_dataset`'s hard-coded categorical columns `LifeStage`, `Chemical` and `Reference Type` are a parameter. The `_x`/`_y` suffixes that `merge` adds to columns present on both sides are not modelled: the categorical aggregate replaces the maximum. The tuple column selection in `groupby`, which current pandas rejects, is read as a list.
- A column that mixes numbers and text makes pandas' `max` raise `TypeError`. The model orders missing before numbers before text instead.
- Flags.ConvertZeroOne: `df[var].fillna(0, inplace=True)` (`src/data_processing.py:45`) is a chained in-place call. Under pandas' copy-on-write it fills a temporary and the column keeps its missing cells. The model takes the write-back the line evidently intends: missing cells of a converted column become 0.
- A column's dtype is read off its cells: it is object-typed exactly when some row holds text. pandas also stores an all-missing column, or one read with mixed content, as object, and keeps a column's dtype when rows are dropped; `Filters.FilterAll` uses the input's dtypes for that reason.
- Filters.TagMask: when the reduced object mask holds values that are all column labels, pandas projects onto those columns instead of raising. The model reports `ObjectMask` for every object mask over one row or more, and does not carry the labels pandas' message lists.
- Filters.Truthy: Python's truth of a text cell is used by the reductions, but over a text column the result never becomes a boolean mask, so no row is kept or dropped by it.
- Filters.FilterAllIdempotent: when a multilabel group names a text column, the first pass succeeds only over no rows and returns a frame without columns, and the second pass fails on it; the lemma states that failure instead of equality.
- Numbers are integers: boolean and fractional cells, and `1.0 == 1`, are not modelled.
- `nodes_unique = list(set(nodes_s6))` (`src/app.py:239`) gives node columns in an unspecified order. The model takes the node frame as given.
- `validate_file` only reports; it does not stop "Create Network". The model returns the report.

## Findings

| source | as written | input that shows it | evidently intended | confidence | as-written member | corrected member |
|---|---|---|---|---|---|---|
| src/network_analysis.py:139 | `iloc[::2]` after the sort by co-occurrence count keeps rows 0, 2, 4, …. This assumes the two orientations of every pair sit next to each other, but the default quicksort is not stable. | two pairs `{A, B}` and `{C, D}` with equal counts, sorted as `A→B, C→D, B→A, D→C` (a valid order for the sort): the kept rows are `A→B` and `B→A`, so `{A, B}` appears twice and `{C, D}` never | one row per unordered pair, every pair present | medium, not executed | Rules.KeepEverySecondCounterexample | Rules.TabularRules |
| src/app.py:130 | "Create Network" resets the preprocessed frame but not the cached filtered frame (also at line 143). The filter step at lines 281-288 recomputes only when the selection changed. | filter a first data set with no selection, then load a second data set and keep no selection: the view keeps the first data set's records | the filtered frame is recomputed from the newly loaded frame | medium, not executed | App.StaleFilterCounterexample | App.LoadThenRefresh |

=== FILE: app.dfy ===
/**
  The application's own logic around the pipeline: upload validation, the
  readiness check, the filter selection and its cache, the node-pair view
  and the rule lookup for a selected pair.
 */
module App {
  import opened Tables
  import opened Filters
  import opened Rules

  // ---------------------------------------------------------------- uploads

  /** The columns each known upload must have, in the order they are
      reported. */
  function RequiredColumns(fileType: string): Option<seq<string>> {
    if fileType == "distiller_input_file" then Some(["Refid", "Title", "Abstract"])
    else if fileType == "filter_group_file" then Some(["filter_group_name", "columns_in_group"])
    else if fileType == "network_config_file" then Some(["columns_in_network"])
    else if fileType == "network_edge_view_options" then Some(["entity_1", "entity_2", "edge_color", "edge_label"])
    else None
  }

  /** What `validate_file` reports. */
  datatype Report = UnknownType | MissingColumns(columns: seq<string>) | Validated

  /** `validate_file(file_type, df)` given the upload's header. */
  function ValidateFile(fileType: string, header: seq<string>): (r: Report)
    ensures r.UnknownType? <==> RequiredColumns(fileType).None?
    ensures r.MissingColumns? ==>
              (r.columns != [] &&
               forall x :: x in r.columns <==> x in RequiredColumns(fileType).value && x !in header)
    ensures r.MissingColumns? ==> r.columns == Absent(RequiredColumns(fileType).value, header)
    ensures r.Validated? <==> RequiredColumns(fileType).Some? && forall x :: x in RequiredColumns(fileType).value ==> x in header
  {
    match RequiredColumns(fileType)
    case None => UnknownType
    case Some(required) =>
      var missing := Absent(required, header);
      if missing != [] then
        assert missing[0] in missing;
        MissingColumns(missing)
      else Validated
  }

  /** The record file validates exactly when it has `Refid`, `Title` and
      `Abstract`; the edge options file needs all four of its columns. */
  lemma ValidateKnownFiles(header: seq<string>)
    ensures ValidateFile("distiller_input_file", header).Validated? <==>
            "Refid" in header && "Title" in header && "Abstract" in header
    ensures ValidateFile("network_edge_view_options", header).Validated? <==>
            "entity_1" in header && "entity_2" in header && "edge_color" in header && "edge_label" in header
    ensures ValidateFile("edge_colors", header) == UnknownType
  {
    var distiller := ["Refid", "Title", "Abstract"];
    var options := ["entity_1", "entity_2", "edge_color", "edge_label"];
    assert RequiredColumns("distiller_input_file") == Some(distiller);
    assert RequiredColumns("network_edge_view_options") == Some(options);
    assert forall x :: x in distiller <==> x == distiller[0] || x == distiller[1] || x == distiller[2];
    assert forall x :: x in options <==> x == options[0] || x == options[1] || x == options[2] || x == options[3];
  }

  /** The uploads "Create Network" needs. */
  const RequiredFiles: seq<string> := ["distiller_input_file", "network_config_file"]

  function AllUploaded(required: seq<string>, uploaded: set<string>): (r: bool)
    ensures r <==> forall k :: 0 <= k < |required| ==> required[k] in uploaded
  {
    if required == [] then true
    else
      assert forall k :: 1 <= k < |required| ==> required[k] == required[1..][k - 1];
      required[0] in uploaded && AllUploaded(required[1..], uploaded)
  }

  /** `all(uploaded_files[file_type] for file_type in required_files)`:
      whether "Create Network" proceeds, given the upload slots that hold a
      file. */
  function ReadyToCreate(uploaded: set<string>): (r: bool)
    ensures r <==> "distiller_input_file" in uploaded && "network_config_file" in uploaded
  {
    var r := AllUploaded(RequiredFiles, uploaded);
    assert RequiredFiles[0] == "distiller_input_file" && RequiredFiles[1] == "network_config_file";
    r
  }

  // -------------------------------------------------------------- selection

  /** `[item for sublist in filters.values() for item in sublist]`. */
  function Flatten(groups: seq<seq<string>>): (r: seq<string>)
    ensures forall x :: x in r <==> exists g :: 0 <= g < |groups| && x in groups[g]
  {
    if groups == [] then []
    else
      var rest := Flatten(groups[1..]);
      assert forall x :: (exists g :: 1 <= g < |groups| && x in groups[g]) ==> x in rest by {
        forall x | exists g :: 1 <= g < |groups| && x in groups[g]
          ensures x in rest
        {
          var g :| 1 <= g < |groups| && x in groups[g];
          assert groups[1..][g - 1] == groups[g];
        }
      }
      assert forall x :: x in rest ==> exists g :: 0 <= g < |groups| && x in groups[g] by {
        forall x | x in rest
          ensures exists g :: 0 <= g < |groups| && x in groups[g]
        {
          var g :| 0 <= g < |groups| - 1 && x in groups[1..][g];
          assert groups[g + 1] == groups[1..][g];
        }
      }
      groups[0] + rest
  }

  /** The columns offered for selection when no filter-group file is given:
      every column but `Refid`, `Title` and `Abstract`, in order. */
  function SelectableColumns(cols: seq<string>): (r: seq<string>)
    ensures forall x :: x in r <==> x in cols && x !in {"Refid", "Title", "Abstract"}
    ensures |r| <= |cols|
  {
    if cols == [] then []
    else (if cols[0] in {"Refid", "Title", "Abstract"} then [] else [cols[0]]) + SelectableColumns(cols[1..])
  }

  /** Whether some column selected in some group is truthy on a row. */
  predicate AnyGroupSelected(row: Row, groups: seq<seq<string>>) {
    exists g, k :: 0 <= g < |groups| && 0 <= k < |groups[g]| && Truthy(CellAt(row, groups[g][k]))
  }

  /** The app filters with the flattened selection, so a record is kept when
      any selected column of any group is truthy on it (or nothing is
      selected): an OR across groups, not the AND `filter_all` applies to
      separate groups. */
  lemma AppFilterIsOr(t: Table, groups: seq<seq<string>>)
    requires ApplyFilters(t, Flatten(groups)).Ok?
    ensures Flatten(groups) != [] ==>
              ApplyFilters(t, Flatten(groups)).value.rows == Where(t.rows, row => AnyGroupSelected(row, groups))
    ensures Flatten(groups) == [] ==> ApplyFilters(t, Flatten(groups)).value.rows == t.rows
  {
    var sel := Flatten(groups);
    ApplyFiltersKeeps(t, sel);
    if sel == [] {
      WhereAll(t.rows, row => AnySelected(row, sel));
    } else {
      forall i | 0 <= i < |t.rows|
        ensures AnySelected(t.rows[i], sel) == AnyGroupSelected(t.rows[i], groups)
      {
        var row := t.rows[i];
        if AnySelected(row, sel) {
          var k :| 0 <= k < |sel| && Truthy(CellAt(row, sel[k]));
          assert sel[k] in sel;
          var g :| 0 <= g < |groups| && sel[k] in groups[g];
          var j :| 0 <= j < |groups[g]| && groups[g][j] == sel[k];
        }
        if AnyGroupSelected(row, groups) {
          var g, j :| 0 <= g < |groups| && 0 <= j < |groups[g]| && Truthy(CellAt(row, groups[g][j]));
          assert groups[g][j] in sel;
          var k :| 0 <= k < |sel| && sel[k] == groups[g][j];
        }
      }
      WhereCongruent(t.rows, row => AnySelected(row, sel), row => AnyGroupSelected(row, groups));
    }
  }

  /** With one column chosen in each of two groups, a record tagged with only
      the first is kept by the app's OR but dropped by `filter_all`'s AND. */
  lemma OrAcrossGroupsDiffers()
    ensures var row := map["x" := Num(1), "y" := Num(0)];
            var t := Table(["x", "y"], [row]);
            && ApplyFilters(t, Flatten([["x"], ["y"]])) == Ok(t)
            && FilterAll(t, [["x"], ["y"]], []) == Ok(Table(["x", "y"], []))
  {
    var row := map["x" := Num(1), "y" := Num(0)];
    var t := Table(["x", "y"], [row]);
    var groups := [["x"], ["y"]];
    assert "x" !in TextColumns(t) && "y" !in TextColumns(t);
    assert GroupsNumeric(groups, TextColumns(t));
    assert Flatten(groups) == ["x", "y"] by {
      assert Flatten(groups[1..]) == ["y"];
    }
    var sel := ["x", "y"];
    assert Present(t, sel);
    ApplyFiltersKeeps(t, sel);
    assert AnySelected(row, sel) by {
      assert Truthy(CellAt(row, sel[0]));
    }
    assert Where(t.rows, r => AnySelected(r, sel)) == [row];
    assert GroupsNamed(t, groups);
    FilterAllKeeps(t, groups, []);
    assert !Keeps(row, groups, []) by {
      assert !Passes(row, groups[1], "or");
    }
    assert Where(t.rows, r => Keeps(r, groups, [])) == [];
  }

  /** A text column is offered for selection like any other, and filtering
      by it fails: the selection's mask is an object array. */
  lemma TextColumnSelectionFails()
    ensures var t := Table(["Refid", "Chemical"], [map["Refid" := Num(1), "Chemical" := Text("DDT")]]);
            && "Chemical" in SelectableColumns(t.columns)
            && ApplyFilters(t, ["Chemical"]) == Err(ObjectMask)
  {
    var row := map["Refid" := Num(1), "Chemical" := Text("DDT")];
    var t := Table(["Refid", "Chemical"], [row]);
    assert CellAt(t.rows[0], "Chemical").Text?;
    assert "Chemical" in TextColumns(t);
    assert NamesText(["Chemical"], TextColumns(t)) by {
      assert ["Chemical"][0] in TextColumns(t);
    }
    assert Present(t, ["Chemical"]);
  }

  // ------------------------------------------------------------------ cache

  /** The session state the filter step reads and writes: the preprocessed
      frame, the cached filtered frame and the selection it was made for. */
  datatype Session = Session(prep: Table, filtered: Option<Table>, selected: seq<string>)

  /** The cache is right when it holds the filtering of the current frame by
      the stored selection. */
  predicate CacheValid(s: Session) {
    s.filtered.Some? ==> ApplyFilters(s.prep, s.selected) == Ok(s.filtered.value)
  }

  /** The filter step: recompute when nothing is cached or the selection
      changed, otherwise keep the cached frame. */
  function RefreshFilter(s: Session, selected: seq<string>): (r: Result<Session>)
    ensures s.filtered.Some? && selected == s.selected ==> r == Ok(s)
    ensures (s.filtered.None? || selected != s.selected) ==>
              (r.Ok? <==> ApplyFilters(s.prep, selected).Ok?)
    ensures r.Ok? ==> r.value.prep == s.prep && r.value.selected == selected && r.value.filtered.Some?
  {
    if s.filtered.None? || selected != s.selected then
      var f :- ApplyFilters(s.prep, selected);
      Ok(s.(filtered := Some(f), selected := selected))
    else Ok(s)
  }

  /** A valid cache stays valid through the filter step, and the frame the
      step leaves is the filtering of the current frame by the selection. */
  lemma RefreshKeepsCacheValid(s: Session, selected: seq<string>)
    requires CacheValid(s) && RefreshFilter(s, selected).Ok?
    ensures CacheValid(RefreshFilter(s, selected).value)
    ensures Ok(RefreshFilter(s, selected).value.filtered.value) == ApplyFilters(s.prep, selected)
  {
  }

  /** Loading new files as written: the frame is replaced (it is reset and
      then reloaded) and the cached filtered frame is kept. */
  function LoadFrameAsWritten(s: Session, prep: Table): (r: Session)
    ensures r.prep == prep && r.filtered == s.filtered && r.selected == s.selected
  {
    s.(prep := prep)
  }

  /** Loading new files with the cache dropped alongside the frame. */
  function LoadFrame(s: Session, prep: Table): (r: Session)
    ensures r.prep == prep && r.filtered.None? && CacheValid(r)
  {
    s.(prep := prep, filtered := None)
  }

  /** With the cache dropped on load, the frame the filter step leaves is
      always the filtering of the newly loaded frame. */
  lemma LoadThenRefresh(s: Session, prep: Table, selected: seq<string>)
    requires RefreshFilter(LoadFrame(s, prep), selected).Ok?
    ensures Ok(RefreshFilter(LoadFrame(s, prep), selected).value.filtered.value) == ApplyFilters(prep, selected)
  {
  }

  /** As written, a filter step after loading a second frame with the same
      selection keeps the first frame's filtered rows. */
  lemma StaleFilterCounterexample()
    ensures var first := Table(["Refid"], [map["Refid" := Num(1)]]);
            var second := Table(["Refid"], []);
            var s := Session(first, Some(first), []);
            && CacheValid(s)
            && RefreshFilter(LoadFrameAsWritten(s, second), []) == Ok(Session(second, Some(first), []))
            && ApplyFilters(second, []) == Ok(second)
            && first != second
  {
    var first := Table(["Refid"], [map["Refid" := Num(1)]]);
    var second := Table(["Refid"], []);
    ApplyFiltersKeeps(first, []);
    WhereAll(first.rows, row => AnySelected(row, []));
    ApplyFiltersKeeps(second, []);
  }

  // ------------------------------------------------------------- node pair

  /** The node-pair view: every filtered record when either node is blank,
      otherwise the records with 1 in both node columns; a node naming no
      column raises. */
  function SelectNodePair(t: Table, node1: string, node2: string): (r: Result<Table>)
    ensures (node1 == "" || node2 == "") ==> r == Ok(t)
    ensures node1 != "" && node2 != "" ==>
              (r.Ok? <==> node1 in t.columns && node2 in t.columns)
    ensures r.Ok? ==> r.value.columns == t.columns
    ensures r.Ok? && node1 != "" && node2 != "" ==>
              r.value.rows == Where(t.rows, row => CellAt(row, node1) == Num(1) && CellAt(row, node2) == Num(1))
  {
    if node1 == "" || node2 == "" then Ok(t)
    else if node1 !in t.columns then Err(KeyError([node1]))
    else if node2 !in t.columns then Err(KeyError([node2]))
    else Ok(t.(rows := Where(t.rows, row => CellAt(row, node1) == Num(1) && CellAt(row, node2) == Num(1))))
  }

  /** Every record of the pair view has both nodes, and every filtered
      record with both nodes is in it. */
  lemma NodePairMeaning(t: Table, node1: string, node2: string, row: Row)
    requires node1 != "" && node2 != "" && SelectNodePair(t, node1, node2).Ok?
    ensures row in SelectNodePair(t, node1, node2).value.rows <==>
            row in t.rows && CellAt(row, node1) == Num(1) && CellAt(row, node2) == Num(1)
  {
  }

  // ----------------------------------------------------------- rule lookup

  /** `cols_ar`: the rule-table columns the application shows. */
  const AppColumns: seq<string> := [
    "entity_1", "entity_2", "entity_1_count", "entity_2_count", "co-occurrence_count",
    "support", "lift", "leverage", "pmi"]

  lemma AppColumnsExist()
    ensures forall c :: c in AppColumns ==> c in RuleColumns
  {
  }

  /** Whether a rule row is oriented from `node1` to `node2`. */
  predicate Oriented(row: TabularRow, node1: string, node2: string) {
    "entity_1" in row && row["entity_1"] == Label(node1) && "entity_2" in row && row["entity_2"] == Label(node2)
  }

  /** `fim.loc[(fim["entity_1"] == node1) & (fim["entity_2"] == node2)]`. */
  function Matching(rows: seq<TabularRow>, node1: string, node2: string): (r: seq<TabularRow>)
    ensures forall x :: x in r <==> x in rows && Oriented(x, node1, node2)
    ensures |r| <= |rows|
  {
    if rows == [] then []
    else (if Oriented(rows[0], node1, node2) then [rows[0]] else []) + Matching(rows[1..], node1, node2)
  }

  /** The rule rows for the selected pair: the `(node1, node2)` orientation,
      or the `(node2, node1)` one when that does not give exactly one row. */
  function LookupRule(rows: seq<TabularRow>, node1: string, node2: string): (r: seq<TabularRow>)
    ensures |Matching(rows, node1, node2)| == 1 ==> r == Matching(rows, node1, node2)
    ensures |Matching(rows, node1, node2)| != 1 ==> r == Matching(rows, node2, node1)
  {
    var direct := Matching(rows, node1, node2);
    if |direct| != 1 then Matching(rows, node2, node1) else direct
  }

  /** A filter no row passes returns nothing. */
  lemma {:induction false} MatchingNone(rows: seq<TabularRow>, node1: string, node2: string)
    requires forall j :: 0 <= j < |rows| ==> !Oriented(rows[j], node1, node2)
    ensures Matching(rows, node1, node2) == []
  {
    if rows != [] {
      MatchingNone(rows[1..], node1, node2);
    }
  }

  /** A filter that only one row passes returns that row. */
  lemma {:induction false} MatchingSingle(rows: seq<TabularRow>, node1: string, node2: string, i: int)
    requires 0 <= i < |rows| && Oriented(rows[i], node1, node2)
    requires forall j :: 0 <= j < |rows| && j != i ==> !Oriented(rows[j], node1, node2)
    ensures Matching(rows, node1, node2) == [rows[i]]
  {
    if i == 0 {
      MatchingNone(rows[1..], node1, node2);
    } else {
      MatchingSingle(rows[1..], node1, node2, i - 1);
    }
  }

  /** The unordered pair a rule row is about. */
  function PairOf(row: TabularRow): set<string> {
    (if "entity_1" in row && row["entity_1"].Label? then {row["entity_1"].text} else {}) +
    (if "entity_2" in row && row["entity_2"].Label? then {row["entity_2"].text} else {})
  }

  /** On a table with one row per unordered pair, the lookup of two distinct
      nodes returns exactly the pair's row, in whichever orientation it was
      kept. */
  lemma LookupFindsPair(rows: seq<TabularRow>, node1: string, node2: string, i: int)
    requires forall a, b :: 0 <= a < b < |rows| ==> PairOf(rows[a]) != PairOf(rows[b])
    requires 0 <= i < |rows| && node1 != node2
    requires Oriented(rows[i], node1, node2) || Oriented(rows[i], node2, node1)
    ensures LookupRule(rows, node1, node2) == [rows[i]]
  {
    assert PairOf(rows[i]) == {node1, node2};
    forall j | 0 <= j < |rows| && j != i
      ensures !Oriented(rows[j], node1, node2) && !Oriented(rows[j], node2, node1)
    {
      if j < i {
        assert PairOf(rows[j]) != PairOf(rows[i]);
      } else {
        assert PairOf(rows[i]) != PairOf(rows[j]);
      }
    }
    if Oriented(rows[i], node1, node2) {
      MatchingSingle(rows, node1, node2, i);
    } else {
      MatchingNone(rows, node1, node2);
      MatchingSingle(rows, node2, node1, i);
    }
  }

  /** A tabulated row shows the pair of the rule it came from. */
  lemma TabulatePairs(rules: seq<Rule>, cols: seq<string>)
    requires forall x :: x in rules ==> |x.antecedents| == 1 && |x.consequents| == 1
    requires "entity_1" in cols && "entity_2" in cols
    requires Tabulate(rules, cols).Ok?
    ensures forall a :: 0 <= a < |rules| ==> PairOf(Tabulate(rules, cols).value[a]) == Key(rules[a])
  {
    var rows := Tabulate(rules, cols).value;
    forall a | 0 <= a < |rules|
      ensures PairOf(rows[a]) == Key(rules[a])
    {
      var x := rules[a];
      assert x in rules;
      assert Some(rows[a]["entity_1"]) == Field(x, "entity_1");
      assert Some(rows[a]["entity_2"]) == Field(x, "entity_2");
      assert x.antecedents == [x.antecedents[0]] && x.consequents == [x.consequents[0]];
      assert (set y | y in x.antecedents) == {x.antecedents[0]};
      assert (set y | y in x.consequents) == {x.consequents[0]};
    }
  }

  /** The rows of the corrected rule table are about distinct unordered
      pairs, so the lookup of two distinct nodes finds at most one row. */
  lemma NetworkTabularPairsDistinct(t: Table, ln: real -> real)
    requires NetworkTabular(t, AppColumns, ln).Ok?
    ensures var rows := NetworkTabular(t, AppColumns, ln).value;
            forall a, b :: 0 <= a < b < |rows| ==> PairOf(rows[a]) != PairOf(rows[b])
  {
    var rules := TabularRules(t, ln).value;
    SortedRulesShape(t, ln);
    AppColumnsExist();
    assert forall x :: x in rules ==> x in ReturnAssocRules(t, TabularMinSupport, ln).value;
    assert NetworkTabular(t, AppColumns, ln) == Tabulate(rules, AppColumns);
    TabulatePairs(rules, AppColumns);
  }
}

=== FILE: cell_order.dfy ===
/**
  The order pandas uses when it takes a column maximum or sorts group keys.

  Numbers compare numerically and texts lexicographically by code point, as
  Python compares `str`. A missing cell sits below everything, which is how
  `max` skips NaN: the maximum of a group is missing only when every cell of
  the group is. A column read from CSV holds numbers or texts, never both;
  the order puts numbers below texts only so that it is total.
 */
module CellOrder {
  import opened Tables

  /** Python's `<` on `str`. */
  predicate TextLess(a: string, b: string) {
    if |a| == 0 then |b| > 0
    else if |b| == 0 then false
    else a[0] < b[0] || (a[0] == b[0] && TextLess(a[1..], b[1..]))
  }

  predicate Less(a: Cell, b: Cell) {
    match (a, b)
    case (Missing, Missing) => false
    case (Missing, _) => true
    case (Num(x), Num(y)) => x < y
    case (Num(_), Text(_)) => true
    case (Text(x), Text(y)) => TextLess(x, y)
    case (_, _) => false
  }

  predicate LessEq(a: Cell, b: Cell) {
    a == b || Less(a, b)
  }

  /** The larger of two cells; a missing cell never wins over a present one. */
  function Max(a: Cell, b: Cell): (r: Cell)
    ensures r == a || r == b
    ensures LessEq(a, r) && LessEq(b, r)
  {
    TotalCells(a, b);
    if Less(a, b) then b else a
  }

  lemma {:induction false} TextIrreflexive(a: string)
    ensures !TextLess(a, a)
  {
    if |a| > 0 {
      TextIrreflexive(a[1..]);
    }
  }

  lemma {:induction false} TextTransitive(a: string, b: string, c: string)
    requires TextLess(a, b) && TextLess(b, c)
    ensures TextLess(a, c)
  {
    if |a| > 0 && a[0] == b[0] && b[0] == c[0] {
      TextTransitive(a[1..], b[1..], c[1..]);
    }
  }

  lemma {:induction false} TextTotal(a: string, b: string)
    requires a != b
    ensures TextLess(a, b) || TextLess(b, a)
  {
    if |a| > 0 && |b| > 0 && a[0] == b[0] {
      assert a == [a[0]] + a[1..] && b == [b[0]] + b[1..];
      TextTotal(a[1..], b[1..]);
    }
  }

  lemma IrreflexiveCells(a: Cell)
    ensures !Less(a, a)
  {
    if a.Text? {
      TextIrreflexive(a.s);
    }
  }

  lemma TransitiveCells(a: Cell, b: Cell, c: Cell)
    requires Less(a, b) && Less(b, c)
    ensures Less(a, c)
  {
    if a.Text? && b.Text? && c.Text? {
      TextTransitive(a.s, b.s, c.s);
    }
  }

  lemma TotalCells(a: Cell, b: Cell)
    ensures a == b || Less(a, b) || Less(b, a)
  {
    if a.Text? && b.Text? && a != b {
      TextTotal(a.s, b.s);
    }
  }

  lemma AsymmetricCells(a: Cell, b: Cell)
    requires Less(a, b)
    ensures !Less(b, a)
  {
    if Less(b, a) {
      TransitiveCells(a, b, a);
      IrreflexiveCells(a);
    }
  }

  lemma LessEqTransitive(a: Cell, b: Cell, c: Cell)
    requires LessEq(a, b) && LessEq(b, c)
    ensures LessEq(a, c)
  {
    if Less(a, b) && Less(b, c) {
      TransitiveCells(a, b, c);
    }
  }
}

=== FILE: edge_colors.dfy ===
/**
  The edge colour map (`create_edge_color_map`, `get_edge_color`).

  Each row of the edge-view options file names two entities, a colour and a
  label. The map is a two-level dictionary from the first entity to the
  second entity to the style. Every row writes both orientations, so a later
  row about the same unordered pair overwrites an earlier one. A lookup of a
  pair the map does not hold gives the default colour "lightgrey".
 */
module EdgeColors {
  import opened Tables

  /** The style a row of the options file gives to one pair: its
      `edge_color` and its `edge_label` (kept as `caption`). */
  datatype EdgeStyle = EdgeStyle(color: string, caption: string)

  /** One row of the options file: `entity_1`, `entity_2`, `edge_color`,
      `edge_label`. */
  datatype EdgeOption = EdgeOption(entity1: string, entity2: string, style: EdgeStyle)

  type ColorMap = map<string, map<string, EdgeStyle>>

  const DefaultColor := "lightgrey"

  /** `edge_color_map[a][b] = style`, creating the inner dictionary when `a`
      has none yet. */
  function Put(m: ColorMap, a: string, b: string, style: EdgeStyle): (r: ColorMap)
    ensures r.Keys == m.Keys + {a}
    ensures b in r[a] && r[a][b] == style
    ensures forall x, y :: x in m && y in m[x] && (x, y) != (a, b) ==> x in r && y in r[x] && r[x][y] == m[x][y]
    ensures forall x, y :: x in r && y in r[x] && (x, y) != (a, b) ==> x in m && y in m[x]
  {
    var inner := if a in m then m[a] else map[];
    m[a := inner[b := style]]
  }

  /** The body of the loop over rows: both orientations, forward first. */
  function AddOption(m: ColorMap, e: EdgeOption): (r: ColorMap)
    ensures r.Keys == m.Keys + {e.entity1, e.entity2}
    ensures Entry(r, e.entity1, e.entity2) == Some(e.style)
    ensures Entry(r, e.entity2, e.entity1) == Some(e.style)
  {
    Put(Put(m, e.entity1, e.entity2, e.style), e.entity2, e.entity1, e.style)
  }

  /** Whether some row names `a` as either entity. */
  predicate Mentions(options: seq<EdgeOption>, a: string) {
    exists k :: 0 <= k < |options| && (options[k].entity1 == a || options[k].entity2 == a)
  }

  /** A row list mentions `a` exactly when its prefix or its last row does. */
  lemma MentionsSnoc(options: seq<EdgeOption>, a: string)
    requires |options| > 0
    ensures var n := |options| - 1;
            Mentions(options, a) <==>
              Mentions(options[..n], a) || options[n].entity1 == a || options[n].entity2 == a
  {
    var n := |options| - 1;
    assert forall k :: 0 <= k < n ==> options[..n][k] == options[k];
  }

  /** `create_edge_color_map` over the rows already read from the file. */
  function BuildColorMap(options: seq<EdgeOption>): (r: ColorMap)
    ensures forall a :: a in r <==> Mentions(options, a)
    decreases |options|
  {
    if options == [] then map[]
    else
      var n := |options| - 1;
      var prev := BuildColorMap(options[..n]);
      var r := AddOption(prev, options[n]);
      assert forall a :: a in r <==> Mentions(options, a) by {
        forall a {
          MentionsSnoc(options, a);
        }
      }
      r
  }

  /** The style stored for `(a, b)`, if any. */
  function Entry(m: ColorMap, a: string, b: string): Option<EdgeStyle> {
    if a in m && b in m[a] then Some(m[a][b]) else None
  }

  /** `get_edge_color`. */
  function GetEdgeColor(m: ColorMap, a: string, b: string): (r: string)
    ensures Entry(m, a, b).None? ==> r == DefaultColor
    ensures Entry(m, a, b).Some? ==> r == Entry(m, a, b).value.color
  {
    if a in m && b in m[a] then m[a][b].color else DefaultColor
  }

  /** Whether a row is about the unordered pair `{a, b}`. */
  predicate Touches(e: EdgeOption, a: string, b: string) {
    (e.entity1 == a && e.entity2 == b) || (e.entity1 == b && e.entity2 == a)
  }

  /** The style of the last row about `{a, b}`: the reference meaning of the
      map. */
  function LastTouching(options: seq<EdgeOption>, a: string, b: string): (r: Option<EdgeStyle>)
    ensures r.None? <==> forall k :: 0 <= k < |options| ==> !Touches(options[k], a, b)
    ensures r.Some? ==> exists k :: 0 <= k < |options| && Touches(options[k], a, b) && options[k].style == r.value &&
                                   forall j :: k < j < |options| ==> !Touches(options[j], a, b)
    decreases |options|
  {
    if options == [] then None
    else
      var n := |options| - 1;
      var init := options[..n];
      assert forall k :: 0 <= k < n ==> init[k] == options[k];
      if Touches(options[n], a, b) then Some(options[n].style)
      else
        var r := LastTouching(init, a, b);
        assert r.Some? ==> exists k :: 0 <= k < |options| && Touches(options[k], a, b) && options[k].style == r.value &&
                                       forall j :: k < j < |options| ==> !Touches(options[j], a, b) by {
          if r.Some? {
            var k :| 0 <= k < n && Touches(init[k], a, b) && init[k].style == r.value &&
                     forall j :: k < j < n ==> !Touches(init[j], a, b);
            assert options[k] == init[k];
          }
        }
        r
  }

  lemma AddOptionEntry(m: ColorMap, e: EdgeOption, a: string, b: string)
    ensures Entry(AddOption(m, e), a, b) == if Touches(e, a, b) then Some(e.style) else Entry(m, a, b)
  {
  }

  /** The map holds, for every pair, the style of the last row about that
      unordered pair, and nothing for a pair no row mentions. */
  lemma {:induction false} BuildColorMapEntry(options: seq<EdgeOption>, a: string, b: string)
    ensures Entry(BuildColorMap(options), a, b) == LastTouching(options, a, b)
    decreases |options|
  {
    if options != [] {
      var n := |options| - 1;
      BuildColorMapEntry(options[..n], a, b);
      AddOptionEntry(BuildColorMap(options[..n]), options[n], a, b);
    }
  }

  /** The map is symmetric: `(a, b)` and `(b, a)` hold the same style or are
      both absent. */
  lemma ColorMapSymmetric(options: seq<EdgeOption>, a: string, b: string)
    ensures Entry(BuildColorMap(options), a, b) == Entry(BuildColorMap(options), b, a)
  {
    BuildColorMapEntry(options, a, b);
    BuildColorMapEntry(options, b, a);
    LastTouchingSymmetric(options, a, b);
  }

  lemma {:induction false} LastTouchingSymmetric(options: seq<EdgeOption>, a: string, b: string)
    ensures LastTouching(options, a, b) == LastTouching(options, b, a)
    decreases |options|
  {
    if options != [] {
      LastTouchingSymmetric(options[..|options| - 1], a, b);
    }
  }

  /** `get_edge_color` on the built map: the colour of the last row about the
      pair, "lightgrey" when no row mentions it, the same in both
      orientations. */
  lemma EdgeColorMeaning(options: seq<EdgeOption>, a: string, b: string)
    ensures GetEdgeColor(BuildColorMap(options), a, b) ==
            (match LastTouching(options, a, b)
             case Some(s) => s.color
             case None => DefaultColor)
    ensures GetEdgeColor(BuildColorMap(options), a, b) == GetEdgeColor(BuildColorMap(options), b, a)
  {
    BuildColorMapEntry(options, a, b);
    ColorMapSymmetric(options, a, b);
  }
}

=== FILE: filters.dfy ===
/**
  Row filtering (`filter_and_or`, `filter_all`, `apply_filters`; the two
  source files that define them define them identically).

  A tag filter reduces the named columns of each row with AND (operator
  "and") or OR (any other operator); an empty tag list passes every row. The
  full filter first keeps the rows whose categorical value is among the
  listed categories, for every categorical spec that lists any, and then the
  rows that pass the OR of every multilabel group.

  The reductions yield booleans only over numeric columns. A column holding
  text has pandas' object dtype; `to_numpy()` over a selection including
  one is an object array, numpy's logical reductions over it return their
  operands rather than booleans, and `df[mask]` reads such a mask as a list
  of column labels: over one row or more it raises `KeyError`, over none it
  selects no columns.
 */
module Filters {
  import opened Tables

  /** Python's truth value of a cell, which numpy's logical reductions use:
      NaN is true, 0 and "" are false. */
  predicate Truthy(c: Cell) {
    match c
    case Missing => true
    case Num(n) => n != 0
    case Text(s) => s != ""
  }

  /** `np.logical_and.reduce` over the named cells of one row. */
  function AllTruthy(row: Row, tags: seq<string>): bool {
    tags == [] || (Truthy(CellAt(row, tags[0])) && AllTruthy(row, tags[1..]))
  }

  /** `np.logical_or.reduce` over the named cells of one row. */
  function AnyTruthy(row: Row, tags: seq<string>): bool {
    tags != [] && (Truthy(CellAt(row, tags[0])) || AnyTruthy(row, tags[1..]))
  }

  lemma {:induction false} AllTruthyMeaning(row: Row, tags: seq<string>)
    ensures AllTruthy(row, tags) <==> forall k :: 0 <= k < |tags| ==> Truthy(CellAt(row, tags[k]))
  {
    if tags != [] {
      AllTruthyMeaning(row, tags[1..]);
      assert forall k :: 1 <= k < |tags| ==> tags[k] == tags[1..][k - 1];
    }
  }

  lemma {:induction false} AnyTruthyMeaning(row: Row, tags: seq<string>)
    ensures AnyTruthy(row, tags) <==> exists k :: 0 <= k < |tags| && Truthy(CellAt(row, tags[k]))
  {
    if tags != [] {
      AnyTruthyMeaning(row, tags[1..]);
      assert forall k :: 1 <= k < |tags| ==> tags[k] == tags[1..][k - 1];
      if exists k :: 0 <= k < |tags| && Truthy(CellAt(row, tags[k])) {
        var k :| 0 <= k < |tags| && Truthy(CellAt(row, tags[k]));
        if k > 0 {
          assert tags[1..][k - 1] == tags[k];
        }
      }
    }
  }

  /** Whether one row passes a tag filter: every named cell truthy for "and",
      some named cell truthy for any other operator, always for no tags. */
  predicate Passes(row: Row, tags: seq<string>, op: string) {
    if tags == [] then true
    else if op == "and" then forall k :: 0 <= k < |tags| ==> Truthy(CellAt(row, tags[k]))
    else exists k :: 0 <= k < |tags| && Truthy(CellAt(row, tags[k]))
  }

  /** Whether `df[labels]` finds every label. */
  predicate Present(t: Table, labels: seq<string>) {
    forall k :: 0 <= k < |labels| ==> labels[k] in t.columns
  }

  lemma AbsentEmpty(t: Table, labels: seq<string>)
    ensures Absent(labels, t.columns) == [] <==> Present(t, labels)
  {
    var a := Absent(labels, t.columns);
    if a != [] {
      assert a[0] in a;
    }
  }

  /** The columns holding a text cell in some row: the columns pandas stores
      with the object dtype. */
  function TextColumns(t: Table): (r: set<string>)
    ensures forall c :: c in r <==> exists i :: 0 <= i < |t.rows| && CellAt(t.rows[i], c).Text?
  {
    set i, c | 0 <= i < |t.rows| && c in t.rows[i] && t.rows[i][c].Text? :: c
  }

  /** Whether some tag names an object-typed column. */
  predicate NamesText(tags: seq<string>, textual: set<string>) {
    exists k :: 0 <= k < |tags| && tags[k] in textual
  }

  /** A reduced mask: booleans, or the empty object array that a reduction
      over an object array gives when there are no rows. */
  datatype Mask = Bools(bits: seq<bool>) | EmptyObjects

  /** `filter_and_or(df, tags, op, return_mask=True)`, with `textual` the
      object-typed columns. The function evaluates `df[filter_mask]` before
      it returns the mask, so an object mask over one row or more raises. */
  function TagMask(t: Table, tags: seq<string>, op: string, textual: set<string>): (r: Result<Mask>)
    ensures r.Err? <==> tags != [] && (!Present(t, tags) || (NamesText(tags, textual) && |t.rows| > 0))
    ensures r.Err? && !Present(t, tags) ==> r.error == KeyError(Absent(tags, t.columns))
    ensures r.Err? && Present(t, tags) ==> r.error == ObjectMask
    ensures r.Ok? ==> (r.value.EmptyObjects? <==> tags != [] && NamesText(tags, textual))
    ensures r.Ok? && r.value.Bools? ==> |r.value.bits| == |t.rows|
    ensures r.Ok? && r.value.Bools? ==> forall i :: 0 <= i < |t.rows| ==> r.value.bits[i] == Passes(t.rows[i], tags, op)
  {
    AbsentEmpty(t, tags);
    if tags == [] then Ok(Bools(seq(|t.rows|, _ => true)))
    else if Absent(tags, t.columns) != [] then Err(KeyError(Absent(tags, t.columns)))
    else if NamesText(tags, textual) then
      if |t.rows| > 0 then Err(ObjectMask) else Ok(EmptyObjects)
    else
      var m := seq(|t.rows|, i requires 0 <= i < |t.rows| =>
                 if op == "and" then AllTruthy(t.rows[i], tags) else AnyTruthy(t.rows[i], tags));
      assert forall i :: 0 <= i < |t.rows| ==> m[i] == Passes(t.rows[i], tags, op) by {
        forall i | 0 <= i < |t.rows|
          ensures m[i] == Passes(t.rows[i], tags, op)
        {
          AllTruthyMeaning(t.rows[i], tags);
          AnyTruthyMeaning(t.rows[i], tags);
        }
      }
      Ok(Bools(m))
  }

  /** `filter_and_or(df, tags, op)`: the frame itself for no tags, the rows
      that pass, in their order, over numeric columns, and an error (or, over
      no rows, a frame without columns) when a tag names a text column. */
  function FilterAndOr(t: Table, tags: seq<string>, op: string): (r: Result<Table>)
    ensures r.Err? <==> tags != [] && (!Present(t, tags) || (NamesText(tags, TextColumns(t)) && |t.rows| > 0))
    ensures tags == [] ==> r == Ok(t)
    ensures r.Ok? && !NamesText(tags, TextColumns(t)) ==>
              r.value == t.(rows := Where(t.rows, row => Passes(row, tags, op)))
    ensures r.Ok? && NamesText(tags, TextColumns(t)) ==> r.value == Table([], [])
  {
    var m :- TagMask(t, tags, op, TextColumns(t));
    match m
    case EmptyObjects => Ok(Table([], t.rows))
    case Bools(bits) =>
      SelectIsWhere(t.rows, bits, row => Passes(row, tags, op));
      if tags == [] then
        WhereAll(t.rows, row => Passes(row, tags, op));
        Ok(t)
      else Ok(t.(rows := Select(t.rows, bits)))
  }

  /** One categorical spec: keep rows whose value is among `categories`. */
  datatype ClassFilter = ClassFilter(name: string, categories: seq<Cell>)

  /** Whether one row satisfies every categorical spec that lists any category. */
  predicate ClassesHold(row: Row, specs: seq<ClassFilter>) {
    forall k :: 0 <= k < |specs| && specs[k].categories != [] ==> CellAt(row, specs[k].name) in specs[k].categories
  }

  /** Whether every categorical spec that filters names a column. */
  predicate ClassesNamed(t: Table, specs: seq<ClassFilter>) {
    forall k :: 0 <= k < |specs| && specs[k].categories != [] ==> specs[k].name in t.columns
  }

  lemma ClassesCons(row: Row, t: Table, s: ClassFilter, rest: seq<ClassFilter>)
    ensures ClassesHold(row, [s] + rest) <==>
              (s.categories != [] ==> CellAt(row, s.name) in s.categories) && ClassesHold(row, rest)
    ensures ClassesNamed(t, [s] + rest) <==> (s.categories != [] ==> s.name in t.columns) && ClassesNamed(t, rest)
  {
    var specs := [s] + rest;
    if ClassesHold(row, specs) {
      assert specs[0] == s;
      forall k | 0 <= k < |rest| && rest[k].categories != []
        ensures CellAt(row, rest[k].name) in rest[k].categories
      {
        assert rest[k] == specs[k + 1];
      }
    }
    if ClassesHold(row, rest) && (s.categories != [] ==> CellAt(row, s.name) in s.categories) {
      forall k | 0 <= k < |specs| && specs[k].categories != []
        ensures CellAt(row, specs[k].name) in specs[k].categories
      {
        if k > 0 {
          assert specs[k] == rest[k - 1];
        }
      }
    }
    if ClassesNamed(t, specs) {
      assert specs[0] == s;
      forall k | 0 <= k < |rest| && rest[k].categories != []
        ensures rest[k].name in t.columns
      {
        assert rest[k] == specs[k + 1];
      }
    }
    if ClassesNamed(t, rest) && (s.categories != [] ==> s.name in t.columns) {
      forall k | 0 <= k < |specs| && specs[k].categories != []
        ensures specs[k].name in t.columns
      {
        if k > 0 {
          assert specs[k] == rest[k - 1];
        }
      }
    }
  }

  /** The loop over categorical specs in `filter_all`. */
  function FilterClasses(t: Table, specs: seq<ClassFilter>): (r: Result<Table>)
    ensures r.Ok? <==> ClassesNamed(t, specs)
    ensures r.Ok? ==> r.value.columns == t.columns
    decreases |specs|
  {
    if specs == [] then Ok(t)
    else
      var s := specs[0];
      var rest := specs[1..];
      assert specs == [s] + rest;
      ClassesCons(map[], t, s, rest);
      if s.categories == [] then FilterClasses(t, rest)
      else if s.name !in t.columns then Err(KeyError([s.name]))
      else
        var t1 := t.(rows := Where(t.rows, row => CellAt(row, s.name) in s.categories));
        assert ClassesNamed(t1, rest) == ClassesNamed(t, rest);
        FilterClasses(t1, rest)
  }

  /** The categorical loop keeps exactly the rows that satisfy every spec
      listing categories, in their order. */
  lemma {:induction false} FilterClassesKeeps(t: Table, specs: seq<ClassFilter>)
    requires ClassesNamed(t, specs)
    ensures FilterClasses(t, specs).value == t.(rows := Where(t.rows, row => ClassesHold(row, specs)))
    decreases |specs|, 1
  {
    var all := row => ClassesHold(row, specs);
    if specs == [] {
      WhereAll(t.rows, all);
    } else {
      var s := specs[0];
      var rest := specs[1..];
      var later := row => ClassesHold(row, rest);
      assert specs == [s] + rest;
      ClassesCons(map[], t, s, rest);
      if s.categories == [] {
        FilterClassesKeeps(t, rest);
        forall i | 0 <= i < |t.rows|
          ensures later(t.rows[i]) == all(t.rows[i])
        {
          ClassesCons(t.rows[i], t, s, rest);
        }
        WhereCongruent(t.rows, later, all);
      } else {
        ClassesStep(t, s, rest);
      }
    }
  }

  /** The inductive step of `FilterClassesKeeps` for a spec that filters. */
  lemma {:induction false} ClassesStep(t: Table, s: ClassFilter, rest: seq<ClassFilter>)
    requires s.categories != [] && s.name in t.columns && ClassesNamed(t, rest)
    ensures FilterClasses(t, [s] + rest).value == t.(rows := Where(t.rows, row => ClassesHold(row, [s] + rest)))
    decreases |rest| + 1, 0
  {
    var specs := [s] + rest;
    assert specs[0] == s && specs[1..] == rest;
    var p := row => CellAt(row, s.name) in s.categories;
    var later := row => ClassesHold(row, rest);
    var all := row => ClassesHold(row, specs);
    var t1 := t.(rows := Where(t.rows, p));
    assert ClassesNamed(t1, rest);
    assert FilterClasses(t, specs) == FilterClasses(t1, rest);
    FilterClassesKeeps(t1, rest);
    WhereWhere(t.rows, p, later);
    forall i | 0 <= i < |t.rows|
      ensures (p(t.rows[i]) && later(t.rows[i])) == all(t.rows[i])
    {
      ClassesCons(t.rows[i], t, s, rest);
    }
    WhereCongruent(t.rows, x => p(x) && later(x), all);
  }

  /** Whether one row passes the OR of every multilabel group. */
  predicate GroupsHold(row: Row, groups: seq<seq<string>>) {
    forall g :: 0 <= g < |groups| ==> Passes(row, groups[g], "or")
  }

  /** Whether every non-empty multilabel group names only columns. */
  predicate GroupsNamed(t: Table, groups: seq<seq<string>>) {
    forall g :: 0 <= g < |groups| && groups[g] != [] ==> Present(t, groups[g])
  }

  lemma GroupsCons(row: Row, t: Table, first: seq<string>, rest: seq<seq<string>>)
    ensures GroupsHold(row, [first] + rest) <==> Passes(row, first, "or") && GroupsHold(row, rest)
    ensures GroupsNamed(t, [first] + rest) <==> (first != [] ==> Present(t, first)) && GroupsNamed(t, rest)
  {
    var groups := [first] + rest;
    if GroupsHold(row, groups) {
      assert groups[0] == first;
      forall g | 0 <= g < |rest|
        ensures Passes(row, rest[g], "or")
      {
        assert rest[g] == groups[g + 1];
      }
    }
    if Passes(row, first, "or") && GroupsHold(row, rest) {
      forall g | 0 <= g < |groups|
        ensures Passes(row, groups[g], "or")
      {
        if g > 0 {
          assert groups[g] == rest[g - 1];
        }
      }
    }
    if GroupsNamed(t, groups) {
      assert groups[0] == first;
      forall g | 0 <= g < |rest| && rest[g] != []
        ensures Present(t, rest[g])
      {
        assert rest[g] == groups[g + 1];
      }
    }
    if (first != [] ==> Present(t, first)) && GroupsNamed(t, rest) {
      forall g | 0 <= g < |groups| && groups[g] != []
        ensures Present(t, groups[g])
      {
        if g > 0 {
          assert groups[g] == rest[g - 1];
        }
      }
    }
  }

  /** Whether no multilabel group names an object-typed column. */
  predicate GroupsNumeric(groups: seq<seq<string>>, textual: set<string>) {
    forall g :: 0 <= g < |groups| ==> !NamesText(groups[g], textual)
  }

  lemma NumericCons(first: seq<string>, rest: seq<seq<string>>, textual: set<string>)
    ensures GroupsNumeric([first] + rest, textual) <==> !NamesText(first, textual) && GroupsNumeric(rest, textual)
  {
    var groups := [first] + rest;
    assert groups[0] == first;
    assert forall g :: 0 <= g < |rest| ==> rest[g] == groups[g + 1];
  }

  /** The row-wise AND of the groups' OR-masks (`np.c_` then
      `np.logical_and.reduce`), with `textual` the object-typed columns; the
      first group that raises decides the error. */
  function CombinedMask(t: Table, groups: seq<seq<string>>, textual: set<string>): (r: Result<Mask>)
    ensures r.Ok? <==> GroupsNamed(t, groups) && (GroupsNumeric(groups, textual) || |t.rows| == 0)
    ensures r.Ok? ==> (r.value.EmptyObjects? <==> !GroupsNumeric(groups, textual))
    ensures r.Ok? && r.value.Bools? ==> |r.value.bits| == |t.rows|
    ensures r.Ok? && r.value.Bools? ==> forall i :: 0 <= i < |t.rows| ==> r.value.bits[i] == GroupsHold(t.rows[i], groups)
    decreases |groups|
  {
    if groups == [] then Ok(Bools(seq(|t.rows|, _ => true)))
    else
      assert groups == [groups[0]] + groups[1..];
      GroupsCons(map[], t, groups[0], groups[1..]);
      NumericCons(groups[0], groups[1..], textual);
      var first :- TagMask(t, groups[0], "or", textual);
      var rest :- CombinedMask(t, groups[1..], textual);
      if first.EmptyObjects? || rest.EmptyObjects? then Ok(EmptyObjects)
      else
        var a, b := first.bits, rest.bits;
        assert forall i :: 0 <= i < |t.rows| ==> GroupsHold(t.rows[i], groups) == (a[i] && b[i]) by {
          forall i | 0 <= i < |t.rows|
            ensures GroupsHold(t.rows[i], groups) == (a[i] && b[i])
          {
            GroupsCons(t.rows[i], t, groups[0], groups[1..]);
          }
        }
        Ok(Bools(seq(|t.rows|, i requires 0 <= i < |t.rows| => a[i] && b[i])))
  }

  /** Whether a row survives `filter_all`. */
  predicate Keeps(row: Row, multilabel: seq<seq<string>>, multiclass: seq<ClassFilter>) {
    ClassesHold(row, multiclass) && GroupsHold(row, multilabel)
  }

  /** `filter_all(df, multilabel, multiclass)`: a `KeyError` when a filtering
      spec names an absent column, or when a multilabel group names a text
      column and some row survives the categorical specs. Row selection keeps
      the dtypes, so the object-typed columns are those of the input. */
  function FilterAll(t: Table, multilabel: seq<seq<string>>, multiclass: seq<ClassFilter>): (r: Result<Table>)
    ensures r.Ok? <==> ClassesNamed(t, multiclass) && GroupsNamed(t, multilabel) &&
                       (GroupsNumeric(multilabel, TextColumns(t)) || |FilterClasses(t, multiclass).value.rows| == 0)
    ensures r.Ok? ==> r.value.columns == (if GroupsNumeric(multilabel, TextColumns(t)) then t.columns else [])
  {
    var t1 :- FilterClasses(t, multiclass);
    assert GroupsNamed(t1, multilabel) == GroupsNamed(t, multilabel);
    if multilabel == [] then Ok(t1)
    else
      var m :- CombinedMask(t1, multilabel, TextColumns(t));
      match m
      case EmptyObjects => Ok(Table([], t1.rows))
      case Bools(bits) => Ok(t1.(rows := Select(t1.rows, bits)))
  }

  /** `filter_all` keeps exactly the rows that satisfy every categorical spec
      and pass every multilabel group, in their order. */
  lemma FilterAllKeeps(t: Table, multilabel: seq<seq<string>>, multiclass: seq<ClassFilter>)
    requires FilterAll(t, multilabel, multiclass).Ok?
    ensures FilterAll(t, multilabel, multiclass).value.rows == Where(t.rows, row => Keeps(row, multilabel, multiclass))
    ensures GroupsNumeric(multilabel, TextColumns(t)) ==>
              FilterAll(t, multilabel, multiclass).value == t.(rows := Where(t.rows, row => Keeps(row, multilabel, multiclass)))
  {
    FilterClassesKeeps(t, multiclass);
    var t1 := FilterClasses(t, multiclass).value;
    var pc := row => ClassesHold(row, multiclass);
    var pg := row => GroupsHold(row, multilabel);
    WhereWhere(t.rows, pc, pg);
    WhereCongruent(t.rows, x => pc(x) && pg(x), row => Keeps(row, multilabel, multiclass));
    if multilabel == [] {
      WhereAll(t1.rows, pg);
    } else {
      assert GroupsNamed(t1, multilabel) == GroupsNamed(t, multilabel);
      match CombinedMask(t1, multilabel, TextColumns(t)).value
      case EmptyObjects =>
        assert t1.rows == [];
      case Bools(m) =>
        SelectIsWhere(t1.rows, m, pg);
    }
  }

  /** The predicate `apply_filters` keeps a row by. */
  predicate AnySelected(row: Row, selected: seq<string>) {
    selected == [] || exists k :: 0 <= k < |selected| && Truthy(CellAt(row, selected[k]))
  }

  /** `apply_filters(df, selected)`: `filter_all` with one multilabel group. */
  function ApplyFilters(t: Table, selected: seq<string>): (r: Result<Table>)
    ensures r.Ok? <==> selected == [] || (Present(t, selected) && (!NamesText(selected, TextColumns(t)) || |t.rows| == 0))
    ensures r.Err? ==> r.error == (if Present(t, selected) then ObjectMask else KeyError(Absent(selected, t.columns)))
    ensures r.Ok? ==> r.value.columns == (if NamesText(selected, TextColumns(t)) then [] else t.columns)
  {
    GroupsCons(map[], t, selected, []);
    NumericCons(selected, [], TextColumns(t));
    assert FilterClasses(t, []) == Ok(t);
    assert [selected][1..] == [];
    FilterAll(t, [selected], [])
  }

  /** `apply_filters` keeps exactly the rows with some selected column truthy
      on them, and every row when nothing is selected. */
  lemma ApplyFiltersKeeps(t: Table, selected: seq<string>)
    requires ApplyFilters(t, selected).Ok?
    ensures ApplyFilters(t, selected).value.rows == Where(t.rows, row => AnySelected(row, selected))
  {
    FilterAllKeeps(t, [selected], []);
    forall row: Row
      ensures Keeps(row, [selected], []) <==> AnySelected(row, selected)
    {
      GroupsCons(row, t, selected, []);
    }
    WhereCongruent(t.rows, row => Keeps(row, [selected], []), row => AnySelected(row, selected));
  }

  /** Dropping rows drops no column from the object-typed ones it did not
      hold text in. */
  lemma TextColumnsWhere(t: Table, p: Row -> bool)
    ensures TextColumns(t.(rows := Where(t.rows, p))) <= TextColumns(t)
  {
    var u := t.(rows := Where(t.rows, p));
    forall c | c in TextColumns(u)
      ensures c in TextColumns(t)
    {
      var i :| 0 <= i < |u.rows| && CellAt(u.rows[i], c).Text?;
      assert u.rows[i] in t.rows;
      var j :| 0 <= j < |t.rows| && t.rows[j] == u.rows[i];
    }
  }

  /** Filtering the output of `filter_all` again with the same specs returns
      it unchanged. */
  lemma FilterAllIdempotent(t: Table, multilabel: seq<seq<string>>, multiclass: seq<ClassFilter>)
    requires FilterAll(t, multilabel, multiclass).Ok?
    ensures GroupsNumeric(multilabel, TextColumns(t)) ==>
              FilterAll(FilterAll(t, multilabel, multiclass).value, multilabel, multiclass)
              == FilterAll(t, multilabel, multiclass)
    ensures !GroupsNumeric(multilabel, TextColumns(t)) ==>
              FilterAll(FilterAll(t, multilabel, multiclass).value, multilabel, multiclass).Err?
  {
    var p := row => Keeps(row, multilabel, multiclass);
    var r := FilterAll(t, multilabel, multiclass).value;
    FilterAllKeeps(t, multilabel, multiclass);
    assert r.rows == Where(t.rows, p);
    if GroupsNumeric(multilabel, TextColumns(t)) {
      TextColumnsWhere(t, p);
      assert GroupsNumeric(multilabel, TextColumns(r));
      assert FilterAll(r, multilabel, multiclass).Ok?;
      FilterAllKeeps(r, multilabel, multiclass);
      WhereIdempotent(t.rows, p);
      WhereCongruent(r.rows, row => Keeps(row, multilabel, multiclass), p);
    } else {
      var g :| 0 <= g < |multilabel| && NamesText(multilabel[g], TextColumns(t));
      var k :| 0 <= k < |multilabel[g]| && multilabel[g][k] in TextColumns(t);
      assert r.columns == [];
      assert !GroupsNamed(r, multilabel);
    }
  }

  /** An empty multilabel group filters nothing: its mask is all true. */
  lemma EmptyGroupNoOp(t: Table, multilabel: seq<seq<string>>, multiclass: seq<ClassFilter>)
    ensures FilterAll(t, [[]] + multilabel, multiclass) == FilterAll(t, multilabel, multiclass)
  {
    var groups := [[]] + multilabel;
    GroupsCons(map[], t, [], multilabel);
    if FilterAll(t, multilabel, multiclass).Ok? {
      FilterAllKeeps(t, multilabel, multiclass);
      FilterAllKeeps(t, groups, multiclass);
      forall row: Row
        ensures Keeps(row, groups, multiclass) <==> Keeps(row, multilabel, multiclass)
      {
        GroupsCons(row, t, [], multilabel);
      }
      WhereCongruent(t.rows, row => Keeps(row, groups, multiclass), row => Keeps(row, multilabel, multiclass));
    }
  }
}

=== FILE: flags.dfy ===
/**
  Flag normalisation (`convert_cols_zero_one`).

  Every column with exactly one distinct present value is a tag column in
  disguise: a cell holding that value means "tagged", a missing cell means
  "not tagged". The conversion walks the columns in order and rewrites such a
  column to 1 where the value is present and 0 where it is missing; every
  other column is left as it is.
 */
module Flags {
  import opened Tables

  /** The distinct present values of column `c` (`dropna().unique()`). */
  function PresentValues(rows: seq<Row>, c: string): set<Cell> {
    set i | 0 <= i < |rows| && CellAt(rows[i], c) != Missing :: CellAt(rows[i], c)
  }

  /** `df[c].nunique() == 1`. */
  predicate IsFlagColumn(rows: seq<Row>, c: string) {
    |PresentValues(rows, c)| == 1
  }

  /** The first present value of column `c` in row order
      (`df[c].dropna().unique()[0]`). */
  function FirstPresent(rows: seq<Row>, c: string): (r: Option<Cell>)
    ensures r.None? <==> forall i :: 0 <= i < |rows| ==> CellAt(rows[i], c) == Missing
    ensures r.Some? ==> r.value != Missing &&
                        exists i :: 0 <= i < |rows| && CellAt(rows[i], c) == r.value
  {
    if rows == [] then None
    else if CellAt(rows[0], c) != Missing then Some(CellAt(rows[0], c))
    else
      var r := FirstPresent(rows[1..], c);
      assert forall i :: 1 <= i < |rows| ==> rows[i] == rows[1..][i - 1];
      r
  }

  /** `replace(value, 1)` followed by `fillna(0)` on one cell. */
  function ReplaceCell(cell: Cell, value: Cell): Cell {
    if cell == value then Num(1)
    else if cell == Missing then Num(0)
    else cell
  }

  /** What a cell of column `c` means after normalisation: a presence flag
      when the column has one distinct present value, itself otherwise. */
  function Flagged(rows: seq<Row>, c: string, cell: Cell): Cell {
    if IsFlagColumn(rows, c) then (if cell == Missing then Num(0) else Num(1))
    else cell
  }

  /** One iteration of the loop over columns. */
  function ConvertColumn(t: Table, c: string): (r: Table)
    ensures r.columns == t.columns && |r.rows| == |t.rows|
  {
    match FirstPresent(t.rows, c)
    case None => t
    case Some(v) =>
      if IsFlagColumn(t.rows, c) then
        t.(rows := seq(|t.rows|, i requires 0 <= i < |t.rows| =>
                         t.rows[i][c := ReplaceCell(CellAt(t.rows[i], c), v)]))
      else t
  }

  function ConvertColumns(t: Table, cols: seq<string>): (r: Table)
    ensures r.columns == t.columns && |r.rows| == |t.rows|
    decreases |cols|
  {
    if cols == [] then t else ConvertColumns(ConvertColumn(t, cols[0]), cols[1..])
  }

  /** `convert_cols_zero_one`. */
  function ConvertZeroOne(t: Table): (r: Table)
    ensures r.columns == t.columns && |r.rows| == |t.rows|
  {
    ConvertColumns(t, t.columns)
  }

  lemma PresentValuesAgree(a: seq<Row>, b: seq<Row>, c: string)
    requires |a| == |b|
    requires forall i :: 0 <= i < |a| ==> CellAt(a[i], c) == CellAt(b[i], c)
    ensures PresentValues(a, c) == PresentValues(b, c)
  {
  }

  /** In a one-valued column every present cell is the first present one. */
  lemma FlagValue(rows: seq<Row>, c: string, v: Cell, i: int)
    requires FirstPresent(rows, c) == Some(v) && IsFlagColumn(rows, c)
    requires 0 <= i < |rows| && CellAt(rows[i], c) != Missing
    ensures CellAt(rows[i], c) == v
  {
    var i0 :| 0 <= i0 < |rows| && CellAt(rows[i0], c) == v;
    assert v in PresentValues(rows, c);
    assert CellAt(rows[i], c) in PresentValues(rows, c);
    SingletonMembers(PresentValues(rows, c), v, CellAt(rows[i], c));
  }

  /** One column step rewrites that column's cell as `Flagged` says and no
      other cell. */
  lemma ConvertColumnCell(t: Table, c: string, i: int, d: string)
    requires 0 <= i < |t.rows|
    ensures CellAt(ConvertColumn(t, c).rows[i], d) ==
            (if d == c then Flagged(t.rows, c, CellAt(t.rows[i], c)) else CellAt(t.rows[i], d))
  {
    match FirstPresent(t.rows, c)
    case None =>
      assert PresentValues(t.rows, c) == {};
    case Some(v) =>
      if IsFlagColumn(t.rows, c) && CellAt(t.rows[i], c) != Missing {
        FlagValue(t.rows, c, v, i);
      }
  }

  /** One column step keeps the frame well formed. */
  lemma ConvertColumnShape(t: Table, c: string)
    requires WellFormed(t) && c in t.columns
    ensures WellFormed(ConvertColumn(t, c))
  {
    var u := ConvertColumn(t, c);
    forall i | 0 <= i < |u.rows|
      ensures u.rows[i].Keys == ColumnSet(u)
    {
      assert c in t.rows[i];
    }
  }

  /** The loop over a list of distinct columns rewrites exactly those
      columns, each judged on the original frame. */
  lemma {:induction false} ConvertColumnsCell(t: Table, cols: seq<string>, i: int, d: string)
    requires Distinct(cols) && 0 <= i < |t.rows|
    ensures CellAt(ConvertColumns(t, cols).rows[i], d) ==
            (if d in cols then Flagged(t.rows, d, CellAt(t.rows[i], d)) else CellAt(t.rows[i], d))
    decreases |cols|
  {
    if cols != [] {
      var c := cols[0];
      var rest := cols[1..];
      var u := ConvertColumn(t, c);
      assert forall k :: 0 <= k < |rest| ==> rest[k] == cols[k + 1];
      assert c !in rest;
      assert Distinct(rest);
      ConvertColumnsCell(u, rest, i, d);
      ConvertColumnCell(t, c, i, d);
      if d in rest {
        forall j | 0 <= j < |t.rows|
          ensures CellAt(u.rows[j], d) == CellAt(t.rows[j], d)
        {
          ConvertColumnCell(t, c, j, d);
        }
        PresentValuesAgree(u.rows, t.rows, d);
      }
    }
  }

  lemma {:induction false} ConvertColumnsShape(t: Table, cols: seq<string>)
    requires WellFormed(t)
    requires forall c :: c in cols ==> c in t.columns
    ensures WellFormed(ConvertColumns(t, cols))
    decreases |cols|
  {
    if cols != [] {
      ConvertColumnShape(t, cols[0]);
      ConvertColumnsShape(ConvertColumn(t, cols[0]), cols[1..]);
    }
  }

  /** Normalisation rewrites one cell as `Flagged` says: a one-valued column
      becomes 1 at present and 0 at missing cells, every other column is
      unchanged. */
  lemma ConvertZeroOneCell(t: Table, i: int, c: string)
    requires WellFormed(t) && 0 <= i < |t.rows|
    ensures CellAt(ConvertZeroOne(t).rows[i], c) == Flagged(t.rows, c, CellAt(t.rows[i], c))
  {
    ConvertColumnsCell(t, t.columns, i, c);
    if c !in t.columns {
      assert forall j :: 0 <= j < |t.rows| ==> CellAt(t.rows[j], c) == Missing;
      assert PresentValues(t.rows, c) == {};
    }
  }

  /** Normalisation keeps the frame well formed. */
  lemma ConvertZeroOneShape(t: Table)
    requires WellFormed(t)
    ensures WellFormed(ConvertZeroOne(t))
  {
    ConvertColumnsShape(t, t.columns);
  }

  /** A converted column holds only 0 and 1, and 1 exactly where the raw
      column had a value. */
  lemma FlagColumnIsZeroOne(t: Table, c: string, i: int)
    requires WellFormed(t) && IsFlagColumn(t.rows, c) && 0 <= i < |t.rows|
    ensures CellAt(ConvertZeroOne(t).rows[i], c) in {Num(0), Num(1)}
    ensures CellAt(ConvertZeroOne(t).rows[i], c) == Num(1) <==> CellAt(t.rows[i], c) != Missing
  {
    ConvertZeroOneCell(t, i, c);
  }

  /** A column with no present value, or with two or more distinct ones,
      comes through normalisation untouched. */
  lemma OtherColumnUnchanged(t: Table, c: string, i: int)
    requires WellFormed(t) && !IsFlagColumn(t.rows, c) && 0 <= i < |t.rows|
    ensures CellAt(ConvertZeroOne(t).rows[i], c) == CellAt(t.rows[i], c)
  {
    ConvertZeroOneCell(t, i, c);
  }

  /** A second normalisation leaves every cell of the first one as it is. */
  lemma IdempotentCell(t: Table, i: int, c: string)
    requires WellFormed(t) && 0 <= i < |t.rows|
    ensures CellAt(ConvertZeroOne(ConvertZeroOne(t)).rows[i], c) == CellAt(ConvertZeroOne(t).rows[i], c)
  {
    var u := ConvertZeroOne(t);
    ConvertZeroOneShape(t);
    ConvertZeroOneCell(u, i, c);
    ConvertZeroOneCell(t, i, c);
    var x := CellAt(u.rows[i], c);
    if IsFlagColumn(u.rows, c) {
      if IsFlagColumn(t.rows, c) {
        // the raw column had a value somewhere, which became a 1
        var v :| v in PresentValues(t.rows, c);
        var j :| 0 <= j < |t.rows| && CellAt(t.rows[j], c) != Missing && CellAt(t.rows[j], c) == v;
        ConvertZeroOneCell(t, j, c);
        assert Num(1) in PresentValues(u.rows, c);
        if x == Num(0) {
          assert Num(0) in PresentValues(u.rows, c);
          SingletonMembers(PresentValues(u.rows, c), Num(0), Num(1));
        }
      } else {
        forall j | 0 <= j < |t.rows|
          ensures CellAt(u.rows[j], c) == CellAt(t.rows[j], c)
        {
          ConvertZeroOneCell(t, j, c);
        }
        PresentValuesAgree(u.rows, t.rows, c);
      }
    }
  }

  /** Normalising a normalised frame changes nothing: a converted column is
      either all 1 (its single value 1 is replaced by 1) or holds both 0 and 1
      (two distinct values, so it is skipped). */
  lemma ConvertZeroOneIdempotent(t: Table)
    requires WellFormed(t)
    ensures ConvertZeroOne(ConvertZeroOne(t)) == ConvertZeroOne(t)
  {
    var u := ConvertZeroOne(t);
    var w := ConvertZeroOne(u);
    ConvertZeroOneShape(t);
    ConvertZeroOneShape(u);
    forall i | 0 <= i < |u.rows|
      ensures w.rows[i] == u.rows[i]
    {
      forall c | c in u.rows[i]
        ensures w.rows[i][c] == u.rows[i][c]
      {
        IdempotentCell(t, i, c);
      }
    }
  }
}

=== FILE: grouping.dfy ===
/**
  Record collapse (`prep_dataset`, and `preprocess_data` which runs flag
  normalisation first).

  Rows are grouped by their record identifier; a row whose identifier is
  missing belongs to no group. The groups come out in increasing identifier
  order, one row each. Every column takes the maximum over the group's rows,
  except the categorical columns, which take a most frequent present value.
  With a list of node columns the result is cut down to exactly those.
 */
module Grouping {
  import opened Tables
  import CellOrder
  import Flags

  const RecordId: string := "Refid"

  predicate StrictlySorted(s: seq<Cell>) {
    forall i, j :: 0 <= i < j < |s| ==> CellOrder.Less(s[i], s[j])
  }

  /** Adds a key to a strictly increasing key list. */
  function Insert(s: seq<Cell>, x: Cell): (r: seq<Cell>)
    requires StrictlySorted(s)
    ensures StrictlySorted(r)
    ensures forall y :: y in r <==> y in s || y == x
  {
    if s == [] then [x]
    else if x == s[0] then s
    else if CellOrder.Less(x, s[0]) then
      assert forall j :: 0 <= j < |s| ==> CellOrder.Less(x, s[j]) by {
        forall j | 0 <= j < |s|
          ensures CellOrder.Less(x, s[j])
        {
          if j > 0 {
            CellOrder.TransitiveCells(x, s[0], s[j]);
          }
        }
      }
      [x] + s
    else
      CellOrder.TotalCells(x, s[0]);
      var rest := Insert(s[1..], x);
      assert forall y :: y in rest ==> CellOrder.Less(s[0], y) by {
        forall y | y in rest
          ensures CellOrder.Less(s[0], y)
        {
          if y != x {
            var j :| 0 <= j < |s[1..]| && s[1..][j] == y;
            assert s[j + 1] == y;
          }
        }
      }
      [s[0]] + rest
  }

  /** The distinct present identifiers, in increasing order
      (the index of `groupby(["Refid"])`). */
  function GroupKeys(rows: seq<Row>): (r: seq<Cell>)
    ensures StrictlySorted(r)
    ensures forall k :: k in r <==>
              k != Missing && exists i :: 0 <= i < |rows| && CellAt(rows[i], RecordId) == k
  {
    if rows == [] then []
    else
      var rest := GroupKeys(rows[1..]);
      assert forall i :: 1 <= i < |rows| ==> rows[i] == rows[1..][i - 1];
      var k := CellAt(rows[0], RecordId);
      if k == Missing then rest else Insert(rest, k)
  }

  /** The rows of one record. */
  function Members(rows: seq<Row>, k: Cell): seq<Row> {
    Where(rows, row => CellAt(row, RecordId) == k)
  }

  /** `max()` over one column of a group: an upper bound of every cell that
      is itself one of the cells, and missing only when all cells are. */
  function ColumnMax(rows: seq<Row>, c: string): (r: Cell)
    ensures r == Missing || exists i :: 0 <= i < |rows| && CellAt(rows[i], c) == r
    ensures forall i :: 0 <= i < |rows| ==> CellOrder.LessEq(CellAt(rows[i], c), r)
  {
    if rows == [] then Missing
    else
      var rest := ColumnMax(rows[1..], c);
      var r := CellOrder.Max(CellAt(rows[0], c), rest);
      assert forall i :: 1 <= i < |rows| ==> rows[i] == rows[1..][i - 1];
      assert forall i :: 1 <= i < |rows| ==> CellOrder.LessEq(CellAt(rows[i], c), r) by {
        forall i | 1 <= i < |rows|
          ensures CellOrder.LessEq(CellAt(rows[i], c), r)
        {
          CellOrder.LessEqTransitive(CellAt(rows[i], c), rest, r);
        }
      }
      r
  }

  function Occurrences(cells: seq<Cell>, v: Cell): nat {
    if cells == [] then 0 else (if cells[0] == v then 1 else 0) + Occurrences(cells[1..], v)
  }

  /** The earliest candidate that occurs in `cells` at least as often as any
      other candidate. */
  function MostFrequent(cells: seq<Cell>, cands: seq<Cell>): (r: Cell)
    requires |cands| > 0
    ensures r in cands
    ensures forall w :: w in cands ==> Occurrences(cells, w) <= Occurrences(cells, r)
  {
    if |cands| == 1 then cands[0]
    else
      var best := MostFrequent(cells, cands[1..]);
      if Occurrences(cells, cands[0]) >= Occurrences(cells, best) then cands[0] else best
  }

  function PresentCells(rows: seq<Row>, c: string): (r: seq<Cell>)
    ensures forall v :: v in r <==> v != Missing && exists i :: 0 <= i < |rows| && CellAt(rows[i], c) == v
  {
    if rows == [] then []
    else
      assert forall i :: 1 <= i < |rows| ==> rows[i] == rows[1..][i - 1];
      (if CellAt(rows[0], c) == Missing then [] else [CellAt(rows[0], c)]) + PresentCells(rows[1..], c)
  }

  /** `pd.Series.mode` over one column of a group, with ties resolved to the
      earliest value: a present value no other present value outnumbers, or
      missing when every cell is missing. */
  function ColumnMode(rows: seq<Row>, c: string): (r: Cell)
    ensures r == Missing <==> forall i :: 0 <= i < |rows| ==> CellAt(rows[i], c) == Missing
    ensures r != Missing ==>
              && (exists i :: 0 <= i < |rows| && CellAt(rows[i], c) == r)
              && forall i :: 0 <= i < |rows| && CellAt(rows[i], c) != Missing ==>
                   Occurrences(PresentCells(rows, c), CellAt(rows[i], c)) <= Occurrences(PresentCells(rows, c), r)
  {
    var present := PresentCells(rows, c);
    if present == [] then
      assert forall i :: 0 <= i < |rows| ==> CellAt(rows[i], c) !in present;
      Missing
    else
      assert present[0] in present;
      MostFrequent(present, present)
  }

  /** The collapsed row of record `k`. */
  function GroupRow(t: Table, categorical: seq<string>, k: Cell): (r: Row)
    ensures r.Keys == ColumnSet(t)
  {
    var members := Members(t.rows, k);
    map c | c in t.columns ::
      if c == RecordId then k
      else if c in categorical then ColumnMode(members, c)
      else ColumnMax(members, c)
  }

  /** The columns after `reset_index()`: the identifier first, then the rest
      in their order. */
  function Others(cols: seq<string>): (r: seq<string>)
    ensures forall c :: c in r <==> c in cols && c != RecordId
    ensures Distinct(cols) ==> Distinct(r)
  {
    if cols == [] then []
    else
      var rest := Others(cols[1..]);
      assert forall i :: 1 <= i < |cols| ==> cols[i] == cols[1..][i - 1];
      assert Distinct(cols) ==> Distinct(cols[1..]) && cols[0] !in rest;
      if cols[0] == RecordId then rest else [cols[0]] + rest
  }

  /** The grouped frame, before any node projection. */
  function Grouped(t: Table, categorical: seq<string>): (r: Table)
    requires RecordId in t.columns
    ensures forall c :: c in r.columns <==> c in t.columns
    ensures Distinct(t.columns) ==> Distinct(r.columns)
    ensures |r.rows| == |GroupKeys(t.rows)|
  {
    var keys := GroupKeys(t.rows);
    assert RecordId !in Others(t.columns);
    Table([RecordId] + Others(t.columns),
          seq(|keys|, j requires 0 <= j < |keys| => GroupRow(t, categorical, keys[j])))
  }

  /** `prep_dataset(df, nodes)`: a `KeyError` when the identifier or a
      categorical column is absent, otherwise the grouped frame, projected
      onto `nodes` when they are given. */
  function PrepDataset(t: Table, categorical: seq<string>, nodes: Option<seq<string>>): (r: Result<Table>)
    ensures r.Ok? <==>
              && RecordId in t.columns
              && (forall c :: c in categorical ==> c in t.columns)
              && (nodes.Some? ==> forall c :: c in nodes.value ==> c == RecordId || c in t.columns)
    ensures r.Ok? && nodes.None? ==> r.value == Grouped(t, categorical)
    ensures r.Ok? && nodes.Some? ==> r.value.columns == nodes.value
  {
    if RecordId !in t.columns then Err(KeyError([RecordId]))
    else if Absent(categorical, t.columns) != [] then
      var missing := Absent(categorical, t.columns);
      assert missing[0] in categorical && missing[0] !in t.columns;
      Err(KeyError(missing))
    else
      var g := Grouped(t, categorical);
      match nodes
      case None => Ok(g)
      case Some(ns) =>
        assert forall c :: c in g.columns <==> c == RecordId || c in t.columns;
        Project(g, ns)
  }

  /** `preprocess_data`: normalisation, then collapse with every column kept. */
  function PreprocessData(t: Table, categorical: seq<string>): (r: Result<Table>)
    ensures r.Ok? <==> RecordId in t.columns && forall c :: c in categorical ==> c in t.columns
    ensures r.Err? ==> r.error.KeyError? && r.error.labels != [] && forall c :: c in r.error.labels ==> c !in t.columns
    ensures r.Ok? ==> forall c :: c in r.value.columns <==> c in t.columns
  {
    PrepDataset(Flags.ConvertZeroOne(t), categorical, None)
  }

  /** The identifiers a list of rows carries. */
  function Ids(rows: seq<Row>): set<Cell> {
    set i | 0 <= i < |rows| :: CellAt(rows[i], RecordId)
  }

  /** Row `j` of the grouped frame belongs to the `j`-th smallest key. */
  lemma GroupedId(t: Table, categorical: seq<string>, j: int)
    requires RecordId in t.columns && 0 <= j < |GroupKeys(t.rows)|
    ensures |Grouped(t, categorical).rows| == |GroupKeys(t.rows)|
    ensures CellAt(Grouped(t, categorical).rows[j], RecordId) == GroupKeys(t.rows)[j]
  {
  }

  /** The grouped frame is well formed. */
  lemma GroupedWellFormed(t: Table, categorical: seq<string>)
    requires WellFormed(t) && RecordId in t.columns
    ensures WellFormed(Grouped(t, categorical))
  {
    var g := Grouped(t, categorical);
    var others := Others(t.columns);
    assert RecordId !in others;
    assert forall j :: 0 < j < |g.columns| ==> g.columns[j] == others[j - 1];
    assert forall c :: c in g.columns <==> c in t.columns;
    assert ColumnSet(g) == ColumnSet(t);
  }

  /** The grouped frame has one row per record, in strictly increasing
      identifier order, so no identifier repeats. */
  lemma RecordsIncrease(t: Table, categorical: seq<string>, j1: int, j2: int)
    requires RecordId in t.columns
    requires 0 <= j1 < j2 < |Grouped(t, categorical).rows|
    ensures CellOrder.Less(CellAt(Grouped(t, categorical).rows[j1], RecordId),
                           CellAt(Grouped(t, categorical).rows[j2], RecordId))
  {
    GroupedId(t, categorical, j1);
    GroupedId(t, categorical, j2);
  }

  /** Every present identifier of the input has its row in the grouped
      frame, and no other identifier does. */
  lemma RecordsCovered(t: Table, categorical: seq<string>)
    requires RecordId in t.columns
    ensures Ids(Grouped(t, categorical).rows) == Ids(t.rows) - {Missing}
  {
    var g := Grouped(t, categorical);
    var keys := GroupKeys(t.rows);
    forall k | k in Ids(t.rows) - {Missing}
      ensures k in Ids(g.rows)
    {
      var i :| 0 <= i < |t.rows| && CellAt(t.rows[i], RecordId) == k;
      assert k in keys;
      var j :| 0 <= j < |keys| && keys[j] == k;
      GroupedId(t, categorical, j);
    }
    forall k | k in Ids(g.rows)
      ensures k in Ids(t.rows) - {Missing}
    {
      var j :| 0 <= j < |g.rows| && CellAt(g.rows[j], RecordId) == k;
      GroupedId(t, categorical, j);
      assert keys[j] in keys;
    }
  }

  /** A non-categorical column of the grouped frame is the group maximum: no
      cell of the record exceeds it, and it is one of the record's cells. */
  lemma GroupedIsMax(t: Table, categorical: seq<string>, j: int, c: string)
    requires RecordId in t.columns && c in t.columns && c != RecordId && c !in categorical
    requires 0 <= j < |Grouped(t, categorical).rows|
    ensures var g := Grouped(t, categorical);
            var k := CellAt(g.rows[j], RecordId);
            && (forall i :: 0 <= i < |t.rows| && CellAt(t.rows[i], RecordId) == k ==>
                  CellOrder.LessEq(CellAt(t.rows[i], c), CellAt(g.rows[j], c)))
            && (CellAt(g.rows[j], c) == Missing ||
                exists i :: 0 <= i < |t.rows| && CellAt(t.rows[i], RecordId) == k &&
                            CellAt(t.rows[i], c) == CellAt(g.rows[j], c))
  {
    var keys := GroupKeys(t.rows);
    var k := keys[j];
    var members := Members(t.rows, k);
    var m := ColumnMax(members, c);
    forall i | 0 <= i < |t.rows| && CellAt(t.rows[i], RecordId) == k
      ensures CellOrder.LessEq(CellAt(t.rows[i], c), m)
    {
      assert t.rows[i] in members;
      var i' :| 0 <= i' < |members| && members[i'] == t.rows[i];
    }
    if m != Missing {
      var i' :| 0 <= i' < |members| && CellAt(members[i'], c) == m;
      assert members[i'] in t.rows;
      var i :| 0 <= i < |t.rows| && t.rows[i] == members[i'];
    }
  }

  /** A 0/1 flag column collapses to 0/1 again: a record is tagged exactly
      when one of its rows is. */
  lemma FlagIsAnyMember(t: Table, categorical: seq<string>, j: int, c: string)
    requires RecordId in t.columns && c in t.columns && c != RecordId && c !in categorical
    requires forall i :: 0 <= i < |t.rows| ==> CellAt(t.rows[i], c) in {Num(0), Num(1)}
    requires 0 <= j < |Grouped(t, categorical).rows|
    ensures var g := Grouped(t, categorical);
            && CellAt(g.rows[j], c) in {Num(0), Num(1)}
            && (CellAt(g.rows[j], c) == Num(1) <==>
                exists i :: 0 <= i < |t.rows| && CellAt(t.rows[i], RecordId) == CellAt(g.rows[j], RecordId) &&
                            CellAt(t.rows[i], c) == Num(1))
  {
    var g := Grouped(t, categorical);
    var keys := GroupKeys(t.rows);
    var k := keys[j];
    GroupedId(t, categorical, j);
    GroupedIsMax(t, categorical, j, c);
    assert k in keys;
    var i0 :| 0 <= i0 < |t.rows| && CellAt(t.rows[i0], RecordId) == k;
    assert CellOrder.LessEq(CellAt(t.rows[i0], c), CellAt(g.rows[j], c));
  }

  /** A categorical column of the grouped frame is a most frequent present
      value of the record, or missing when the record has none. */
  lemma GroupedIsMode(t: Table, categorical: seq<string>, j: int, c: string)
    requires RecordId in t.columns && c in t.columns && c != RecordId && c in categorical
    requires 0 <= j < |Grouped(t, categorical).rows|
    ensures var g := Grouped(t, categorical);
            var k := CellAt(g.rows[j], RecordId);
            var present := PresentCells(Members(t.rows, k), c);
            && (CellAt(g.rows[j], c) == Missing <==> present == [])
            && (CellAt(g.rows[j], c) != Missing ==>
                  CellAt(g.rows[j], c) in present &&
                  forall v :: v in present ==> Occurrences(present, v) <= Occurrences(present, CellAt(g.rows[j], c)))
  {
    var keys := GroupKeys(t.rows);
    var k := keys[j];
    var members := Members(t.rows, k);
    var present := PresentCells(members, c);
    var m := ColumnMode(members, c);
    if present != [] {
      assert present[0] in present;
      var i :| 0 <= i < |members| && CellAt(members[i], c) == present[0];
    }
    if m != Missing {
      forall v | v in present
        ensures Occurrences(present, v) <= Occurrences(present, m)
      {
        var i :| 0 <= i < |members| && CellAt(members[i], c) == v;
      }
    }
  }

  /** End to end: after preprocessing, a raw column with one distinct present
      value is a 0/1 tag per record, 1 exactly when one of the record's rows
      held the value. */
  lemma PreprocessTagsRecords(t: Table, categorical: seq<string>, c: string, j: int)
    requires WellFormed(t) && RecordId in t.columns && (forall x :: x in categorical ==> x in t.columns)
    requires c in t.columns && c != RecordId && c !in categorical
    requires Flags.IsFlagColumn(t.rows, c)
    requires PreprocessData(t, categorical).Ok?
    requires 0 <= j < |PreprocessData(t, categorical).value.rows|
    ensures var g := PreprocessData(t, categorical).value;
            var u := Flags.ConvertZeroOne(t);
            && CellAt(g.rows[j], c) in {Num(0), Num(1)}
            && (CellAt(g.rows[j], c) == Num(1) <==>
                exists i :: 0 <= i < |t.rows| && CellAt(u.rows[i], RecordId) == CellAt(g.rows[j], RecordId) &&
                            CellAt(t.rows[i], c) != Missing)
  {
    var u := Flags.ConvertZeroOne(t);
    forall i | 0 <= i < |u.rows|
      ensures CellAt(u.rows[i], c) in {Num(0), Num(1)}
      ensures CellAt(u.rows[i], c) == Num(1) <==> CellAt(t.rows[i], c) != Missing
    {
      Flags.FlagColumnIsZeroOne(t, c, i);
    }
    FlagIsAnyMember(u, categorical, j, c);
  }
}

=== FILE: itemsets.dfy ===
/**
  Frequent itemsets of size one and two (the `apriori` call with
  `max_len=2`), specified by definition rather than by the library's search.

  The input is a frame of 0/1 cells. The count of an itemset is the number
  of rows holding 1 in every member column, and its support is that count
  divided by the number of rows. The miner lists every single column whose
  support reaches the threshold, in column order, and then every pair of
  columns (earlier column first) whose support reaches it. Supports are exact
  reals here; the library computes them in floating point.
 */
module Itemsets {
  import opened Tables

  /** An itemset with its support; `items` lists the members in column
      order. */
  datatype Itemset = Itemset(items: seq<string>, support: real)

  /** Whether a row holds 1 in every named column. */
  predicate AllOne(row: Row, items: seq<string>) {
    forall k :: 0 <= k < |items| ==> CellAt(row, items[k]) == Num(1)
  }

  /** The number of rows holding 1 in every member column. */
  function Count(rows: seq<Row>, items: seq<string>): (r: nat)
    ensures r <= |rows|
  {
    if rows == [] then 0
    else (if AllOne(rows[0], items) then 1 else 0) + Count(rows[1..], items)
  }

  /** The fraction of rows holding 1 in every member column. */
  function Support(rows: seq<Row>, items: seq<string>): (r: real)
    requires |rows| > 0
    ensures 0.0 <= r <= 1.0
    ensures r * (|rows| as real) == Count(rows, items) as real
  {
    Count(rows, items) as real / |rows| as real
  }


  /** Rows with 1 in every column of a larger itemset also have 1 in every
      column of a smaller one, so the larger count is at most the smaller. */
  lemma {:induction false} CountAntiMonotone(rows: seq<Row>, small: seq<string>, big: seq<string>)
    requires forall x :: x in small ==> x in big
    ensures Count(rows, big) <= Count(rows, small)
  {
    if rows != [] {
      CountAntiMonotone(rows[1..], small, big);
      if AllOne(rows[0], big) {
        forall k | 0 <= k < |small|
          ensures CellAt(rows[0], small[k]) == Num(1)
        {
          assert small[k] in big;
          var j :| 0 <= j < |big| && big[j] == small[k];
        }
      }
    }
  }

  /** The count depends only on the set of members. */
  lemma {:induction false} CountSameMembers(rows: seq<Row>, a: seq<string>, b: seq<string>)
    requires forall x :: x in a <==> x in b
    ensures Count(rows, a) == Count(rows, b)
  {
    CountAntiMonotone(rows, a, b);
    CountAntiMonotone(rows, b, a);
  }

  /** Whether every cell of the named columns is 0 or 1. */
  predicate Binary(t: Table, cols: seq<string>) {
    forall i, k :: 0 <= i < |t.rows| && 0 <= k < |cols| ==> CellAt(t.rows[i], cols[k]) in {Num(0), Num(1)}
  }

  /** The first column, in column order, holding a cell other than 0 or 1.
      The library's input check rejects exactly the same frames; its message
      names an offending value rather than a column. */
  function FirstNonBinary(t: Table, cols: seq<string>): (r: Option<string>)
    ensures r.None? <==> Binary(t, cols)
    ensures r.Some? ==> r.value in cols
  {
    if cols == [] then None
    else if forall i :: 0 <= i < |t.rows| ==> CellAt(t.rows[i], cols[0]) in {Num(0), Num(1)} then
      var r := FirstNonBinary(t, cols[1..]);
      assert forall k :: 1 <= k < |cols| ==> cols[k] == cols[1..][k - 1];
      r
    else Some(cols[0])
  }

  /** The single columns reaching the threshold, in column order. */
  function Singles(rows: seq<Row>, cols: seq<string>, minSupport: real): (r: seq<Itemset>)
    requires |rows| > 0
    ensures forall s :: s in r ==> |s.items| == 1
  {
    if cols == [] then []
    else
      var s := Support(rows, [cols[0]]);
      (if s >= minSupport then [Itemset([cols[0]], s)] else []) + Singles(rows, cols[1..], minSupport)
  }

  /** The pairs `(a, b)` for each `b` of `rest` that reach the threshold. */
  function PairsWith(rows: seq<Row>, a: string, rest: seq<string>, minSupport: real): (r: seq<Itemset>)
    requires |rows| > 0
    ensures forall s :: s in r ==> |s.items| == 2
  {
    if rest == [] then []
    else
      var s := Support(rows, [a, rest[0]]);
      (if s >= minSupport then [Itemset([a, rest[0]], s)] else []) + PairsWith(rows, a, rest[1..], minSupport)
  }

  /** The pairs of columns reaching the threshold, earlier column first, in
      the order the library generates them. */
  function Pairs(rows: seq<Row>, cols: seq<string>, minSupport: real): (r: seq<Itemset>)
    requires |rows| > 0
    ensures forall s :: s in r ==> |s.items| == 2
  {
    if cols == [] then [] else PairsWith(rows, cols[0], cols[1..], minSupport) + Pairs(rows, cols[1..], minSupport)
  }

  /** `apriori(df, min_support, max_len=2)`: the threshold must be positive,
      every cell must be 0 or 1, and a frame without rows has no itemsets. */
  function Mine(t: Table, minSupport: real): (r: Result<seq<Itemset>>)
    ensures r.Err? <==> minSupport <= 0.0 || !Binary(t, t.columns)
    ensures minSupport <= 0.0 ==> r == Err(BadMinSupport)
    ensures r.Ok? && |t.rows| == 0 ==> r.value == []
  {
    if minSupport <= 0.0 then Err(BadMinSupport)
    else match FirstNonBinary(t, t.columns)
      case Some(c) => Err(NotBinary(c))
      case None =>
        if |t.rows| == 0 then Ok([])
        else Ok(Singles(t.rows, t.columns, minSupport) + Pairs(t.rows, t.columns, minSupport))
  }

  /** A single column is listed exactly when its support reaches the
      threshold, with that support. */
  lemma {:induction false} SinglesMembers(rows: seq<Row>, cols: seq<string>, minSupport: real, s: Itemset)
    requires |rows| > 0
    ensures s in Singles(rows, cols, minSupport) <==>
            |s.items| == 1 && s.items[0] in cols && s.support == Support(rows, s.items) && s.support >= minSupport
  {
    if cols != [] {
      SinglesMembers(rows, cols[1..], minSupport, s);
      if |s.items| == 1 {
        assert s.items == [s.items[0]];
      }
    }
  }

  lemma {:induction false} PairsWithMembers(rows: seq<Row>, a: string, rest: seq<string>, minSupport: real, s: Itemset)
    requires |rows| > 0
    ensures s in PairsWith(rows, a, rest, minSupport) <==>
            |s.items| == 2 && s.items[0] == a && s.items[1] in rest &&
            s.support == Support(rows, s.items) && s.support >= minSupport
  {
    if rest != [] {
      PairsWithMembers(rows, a, rest[1..], minSupport, s);
      if |s.items| == 2 {
        assert s.items == [s.items[0], s.items[1]];
      }
    }
  }

  /** A pair is listed exactly when its first column precedes its second in
      the frame and its support reaches the threshold, with that support. */
  lemma {:induction false} PairsMembers(rows: seq<Row>, cols: seq<string>, minSupport: real, s: Itemset)
    requires |rows| > 0
    ensures s in Pairs(rows, cols, minSupport) <==>
            |s.items| == 2 && (exists i, j :: 0 <= i < j < |cols| && cols[i] == s.items[0] && cols[j] == s.items[1]) &&
            s.support == Support(rows, s.items) && s.support >= minSupport
  {
    if cols != [] {
      PairsMembers(rows, cols[1..], minSupport, s);
      PairsWithMembers(rows, cols[0], cols[1..], minSupport, s);
      if |s.items| == 2 {
        if exists i, j :: 0 <= i < j < |cols| && cols[i] == s.items[0] && cols[j] == s.items[1] {
          var i, j :| 0 <= i < j < |cols| && cols[i] == s.items[0] && cols[j] == s.items[1];
          if i > 0 {
            assert cols[1..][i - 1] == s.items[0] && cols[1..][j - 1] == s.items[1];
          } else {
            assert cols[1..][j - 1] == s.items[1];
          }
        }
        if exists i, j :: 0 <= i < j < |cols| - 1 && cols[1..][i] == s.items[0] && cols[1..][j] == s.items[1] {
          var i, j :| 0 <= i < j < |cols| - 1 && cols[1..][i] == s.items[0] && cols[1..][j] == s.items[1];
          assert cols[i + 1] == s.items[0] && cols[j + 1] == s.items[1];
        }
        if s.items[0] == cols[0] && s.items[1] in cols[1..] {
          var j :| 0 <= j < |cols| - 1 && cols[1..][j] == s.items[1];
          assert cols[j + 1] == s.items[1];
        }
      }
    }
  }

  /** Both members of a frequent pair are frequent single columns, which is
      the pruning step of the search. */
  lemma PairMembersFrequent(rows: seq<Row>, a: string, b: string)
    requires |rows| > 0
    ensures Support(rows, [a, b]) <= Support(rows, [a])
    ensures Support(rows, [a, b]) <= Support(rows, [b])
  {
    CountAntiMonotone(rows, [a], [a, b]);
    CountAntiMonotone(rows, [b], [a, b]);
    var n := |rows| as real;
    DivideMonotone(Count(rows, [a, b]) as real, Count(rows, [a]) as real, n);
    DivideMonotone(Count(rows, [a, b]) as real, Count(rows, [b]) as real, n);
  }

  lemma DivideMonotone(x: real, y: real, n: real)
    requires x <= y && n > 0.0
    ensures x / n <= y / n
  {
  }

  /** `support * rows`. */
  function Scaled(support: real, rows: real): real {
    support * rows
  }

  /** `int(support * rows)`: truncation toward zero, as `int()` and
      `astype(int)` do. */
  function Truncate(x: real): (r: int)
    ensures x >= 0.0 ==> r as real <= x < r as real + 1.0
    ensures x < 0.0 ==> r as real - 1.0 < x <= r as real
  {
    if x >= 0.0 then x.Floor else -((-x).Floor)
  }

  /** Truncating support times rows recovers the exact row count. */
  lemma TruncatedCount(rows: seq<Row>, items: seq<string>)
    requires |rows| > 0
    ensures Truncate(Scaled(Support(rows, items), |rows| as real)) == Count(rows, items)
  {
  }
}

=== FILE: network.dfy ===
/**
  Node and edge selection for the co-occurrence network (`create_network`).

  The itemsets are mined with a tiny threshold and pairs only. Every single
  column itemset becomes a node, numbered by its position among the single
  itemsets and labelled with the column's row count. Every pair itemset
  supported by more than one row becomes an edge between the two columns'
  nodes, coloured from the edge colour map. The graph widget itself is not
  part of this model.
 */
module Network {
  import opened Tables
  import opened Itemsets
  import opened EdgeColors

  /** `min_support=0.00001`. */
  const NetworkMinSupport: real := 0.00001

  datatype Node = Node(id: nat, name: string, support: real, count: int)

  /** An edge from the first member of a pair itemset to the second, as the
      pair's iteration order gives them. */
  datatype Edge = Edge(source: nat, target: nat, from: string, to: string, support: real, count: int, color: string)

  datatype Graph = Graph(nodes: seq<Node>, edges: seq<Edge>)

  /** The single-column itemsets, in the miner's order (`node_list`). */
  function NodeList(items: seq<Itemset>): (r: seq<Itemset>)
    ensures forall s :: s in r <==> s in items && |s.items| == 1
  {
    if items == [] then []
    else (if |items[0].items| == 1 then [items[0]] else []) + NodeList(items[1..])
  }

  /** The node labels, one per single itemset. */
  function Labels(list: seq<Itemset>): (r: seq<string>)
    requires forall s :: s in list ==> |s.items| == 1
    ensures |r| == |list|
    ensures forall k :: 0 <= k < |list| ==> r[k] == list[k].items[0]
  {
    seq(|list|, k requires 0 <= k < |list| => list[k].items[0])
  }

  /** `node_dict[x]`: the position of the last node labelled `x`, since a
      later entry of the dictionary display overwrites an earlier one. */
  function NodeId(labels: seq<string>, x: string): (r: nat)
    requires x in labels
    ensures r < |labels| && labels[r] == x
    ensures forall k :: r < k < |labels| ==> labels[k] != x
  {
    var n := |labels| - 1;
    if labels[n] == x then n
    else
      assert x in labels[..n] by {
        var k :| 0 <= k < |labels| && labels[k] == x;
        assert labels[..n][k] == x;
      }
      NodeId(labels[..n], x)
  }

  /** Whether an itemset becomes an edge: a pair with support times rows
      above one. */
  predicate IsEdge(s: Itemset, rows: real) {
    |s.items| == 2 && Scaled(s.support, rows) > 1.0
  }

  /** Whether both members of every pair itemset are node labels. */
  predicate EndpointsListed(items: seq<Itemset>, labels: seq<string>) {
    forall s :: s in items && |s.items| == 2 ==> s.items[0] in labels && s.items[1] in labels
  }

  /** The edges, in the miner's order. */
  function Edges(items: seq<Itemset>, labels: seq<string>, rows: real, colors: ColorMap): (r: seq<Edge>)
    requires EndpointsListed(items, labels)
    ensures forall e :: e in r ==>
              e.source < |labels| && labels[e.source] == e.from && e.target < |labels| && labels[e.target] == e.to
  {
    if items == [] then []
    else
      var s := items[0];
      var rest := Edges(items[1..], labels, rows, colors);
      if IsEdge(s, rows) then
        var v1 := s.items[0];
        var v2 := s.items[1];
        [Edge(NodeId(labels, v1), NodeId(labels, v2), v1, v2, s.support,
              TitleCount(s.support, rows), GetEdgeColor(colors, v1, v2))] + rest
      else rest
  }

  /** Every edge comes from an edge itemset with the same members and
      support, titled with `int(support * rows)` and coloured by
      `get_edge_color`. */
  lemma {:induction false} EdgeOrigin(items: seq<Itemset>, labels: seq<string>, rows: real, colors: ColorMap, e: Edge)
    requires EndpointsListed(items, labels)
    requires e in Edges(items, labels, rows, colors)
    ensures exists s :: s in items && IsEdge(s, rows) && s.items == [e.from, e.to] && s.support == e.support
    ensures e.count == TitleCount(e.support, rows) && e.color == GetEdgeColor(colors, e.from, e.to)
  {
    var s := items[0];
    var rest := Edges(items[1..], labels, rows, colors);
    if IsEdge(s, rows) && e == Edges(items, labels, rows, colors)[0] {
      assert s.items == [e.from, e.to];
    } else {
      assert e in rest;
      EdgeOrigin(items[1..], labels, rows, colors, e);
    }
  }

  /** Every edge itemset gives an edge with its members. */
  lemma {:induction false} EdgeFromItemset(items: seq<Itemset>, labels: seq<string>, rows: real, colors: ColorMap, s: Itemset)
    requires EndpointsListed(items, labels)
    requires s in items && IsEdge(s, rows)
    ensures exists e :: e in Edges(items, labels, rows, colors) && s.items == [e.from, e.to]
  {
    var r := Edges(items, labels, rows, colors);
    if s == items[0] {
      assert s.items == [r[0].from, r[0].to];
    } else {
      EdgeFromItemset(items[1..], labels, rows, colors, s);
      var e :| e in Edges(items[1..], labels, rows, colors) && s.items == [e.from, e.to];
      assert e in r;
    }
  }

  /** A column whose support reaches the threshold is a node label. */
  lemma FrequentColumnIsLabel(t: Table, a: string)
    requires Mine(t, NetworkMinSupport).Ok? && |t.rows| > 0
    requires a in t.columns && Support(t.rows, [a]) >= NetworkMinSupport
    ensures a in Labels(NodeList(Mine(t, NetworkMinSupport).value))
  {
    var list := NodeList(Mine(t, NetworkMinSupport).value);
    var sa := Itemset([a], Support(t.rows, [a]));
    SinglesMembers(t.rows, t.columns, NetworkMinSupport, sa);
    assert sa in list;
    var k :| 0 <= k < |list| && list[k] == sa;
    assert Labels(list)[k] == a;
  }

  /** Endpoints of mined pairs are themselves nodes: a pair's support is at
      most each member's, so both members pass the threshold as singles. */
  lemma PairEndpointsAreNodes(t: Table, s: Itemset)
    requires Mine(t, NetworkMinSupport).Ok?
    requires s in Mine(t, NetworkMinSupport).value && |s.items| == 2
    ensures s.items[0] in Labels(NodeList(Mine(t, NetworkMinSupport).value))
    ensures s.items[1] in Labels(NodeList(Mine(t, NetworkMinSupport).value))
  {
    var rows := t.rows;
    var a, b := s.items[0], s.items[1];
    assert s.items == [a, b];
    assert s in Pairs(rows, t.columns, NetworkMinSupport);
    PairsMembers(rows, t.columns, NetworkMinSupport, s);
    PairMembersFrequent(rows, a, b);
    FrequentColumnIsLabel(t, a);
    FrequentColumnIsLabel(t, b);
  }

  lemma MinedEndpointsAreNodes(t: Table)
    requires Mine(t, NetworkMinSupport).Ok?
    ensures EndpointsListed(Mine(t, NetworkMinSupport).value, Labels(NodeList(Mine(t, NetworkMinSupport).value)))
  {
    forall s | s in Mine(t, NetworkMinSupport).value && |s.items| == 2
      ensures s.items[0] in Labels(NodeList(Mine(t, NetworkMinSupport).value))
      ensures s.items[1] in Labels(NodeList(Mine(t, NetworkMinSupport).value))
    {
      PairEndpointsAreNodes(t, s);
    }
  }

  /** `int(support * rows)`, the count shown in node and edge titles. */
  function TitleCount(support: real, rows: real): int {
    Truncate(Scaled(support, rows))
  }

  /** The nodes: one per single itemset, identified through `node_dict`,
      titled with `int(support * rows)`. */
  function Nodes(list: seq<Itemset>, rows: real): (r: seq<Node>)
    requires forall s :: s in list ==> |s.items| == 1
    ensures |r| == |list|
    ensures forall k :: 0 <= k < |list| ==> r[k].name == Labels(list)[k] && r[k].support == list[k].support
    ensures forall k :: 0 <= k < |list| ==> r[k].count == TitleCount(list[k].support, rows)
  {
    var labels := Labels(list);
    seq(|list|, k requires 0 <= k < |list| =>
      Node(NodeId(labels, labels[k]), labels[k], list[k].support, TitleCount(list[k].support, rows)))
  }

  /** `create_network` without the rendering: the nodes and edges the graph
      is built from, or the miner's error. Every edge's endpoints are node
      ids whose labels are the edge's columns. */
  function CreateNetwork(t: Table, colors: ColorMap): (r: Result<Graph>)
    ensures r.Err? <==> !Binary(t, t.columns)
    ensures r.Ok? ==> forall e :: e in r.value.edges ==>
              e.source < |r.value.nodes| && r.value.nodes[e.source].name == e.from &&
              e.target < |r.value.nodes| && r.value.nodes[e.target].name == e.to
  {
    var items :- Mine(t, NetworkMinSupport);
    var list := NodeList(items);
    var labels := Labels(list);
    var rows := |t.rows| as real;
    MinedEndpointsAreNodes(t);
    Ok(Graph(Nodes(list, rows), Edges(items, labels, rows, colors)))
  }

  /** The single itemsets followed by pair itemsets keep only the
      singles. */
  lemma {:induction false} NodeListOfMined(singles: seq<Itemset>, pairs: seq<Itemset>)
    requires forall s :: s in singles ==> |s.items| == 1
    requires forall s :: s in pairs ==> |s.items| == 2
    ensures NodeList(singles + pairs) == singles
  {
    if singles == [] {
      if pairs != [] {
        assert [] + pairs == pairs && pairs[1..] == [] + pairs[1..];
        assert pairs[0] in pairs;
        NodeListOfMined([], pairs[1..]);
      }
    } else {
      assert singles[0] in singles;
      assert (singles + pairs)[1..] == singles[1..] + pairs;
      NodeListOfMined(singles[1..], pairs);
    }
  }

  /** The graph built from a non-empty 0/1 frame. */
  lemma NetworkParts(t: Table, colors: ColorMap)
    requires CreateNetwork(t, colors).Ok? && |t.rows| > 0
    ensures Mine(t, NetworkMinSupport).value ==
            Singles(t.rows, t.columns, NetworkMinSupport) + Pairs(t.rows, t.columns, NetworkMinSupport)
    ensures NodeList(Mine(t, NetworkMinSupport).value) == Singles(t.rows, t.columns, NetworkMinSupport)
    ensures CreateNetwork(t, colors).value.nodes == Nodes(Singles(t.rows, t.columns, NetworkMinSupport), |t.rows| as real)
    ensures EndpointsListed(Mine(t, NetworkMinSupport).value, Labels(NodeList(Mine(t, NetworkMinSupport).value)))
    ensures CreateNetwork(t, colors).value.edges ==
            Edges(Mine(t, NetworkMinSupport).value, Labels(NodeList(Mine(t, NetworkMinSupport).value)), |t.rows| as real, colors)
  {
    NodeListOfMined(Singles(t.rows, t.columns, NetworkMinSupport), Pairs(t.rows, t.columns, NetworkMinSupport));
    MinedEndpointsAreNodes(t);
  }

  /** Over the single itemsets, a node is named `a` exactly when `a` is a
      column reaching the threshold, and its count is the column's. */
  lemma NodesOfSingles(rows: seq<Row>, cols: seq<string>, a: string)
    requires |rows| > 0
    ensures var nodes := Nodes(Singles(rows, cols, NetworkMinSupport), |rows| as real);
            (exists k :: 0 <= k < |nodes| && nodes[k].name == a) <==> a in cols && Support(rows, [a]) >= NetworkMinSupport
  {
    var list := Singles(rows, cols, NetworkMinSupport);
    var nodes := Nodes(list, |rows| as real);
    var sa := Itemset([a], Support(rows, [a]));
    SinglesMembers(rows, cols, NetworkMinSupport, sa);
    if exists k :: 0 <= k < |nodes| && nodes[k].name == a {
      var k :| 0 <= k < |nodes| && nodes[k].name == a;
      assert list[k] in list;
      SinglesMembers(rows, cols, NetworkMinSupport, list[k]);
      assert list[k].items == [a];
    }
    if a in cols && Support(rows, [a]) >= NetworkMinSupport {
      assert sa in list;
      var k :| 0 <= k < |list| && list[k] == sa;
      assert nodes[k].name == a;
    }
  }

  lemma TitleCountIsCount(rows: seq<Row>, items: seq<string>)
    requires |rows| > 0
    ensures TitleCount(Support(rows, items), |rows| as real) == Count(rows, items)
  {
    TruncatedCount(rows, items);
  }

  lemma NodeCountOfSingles(rows: seq<Row>, cols: seq<string>, k: int)
    requires |rows| > 0 && 0 <= k < |Singles(rows, cols, NetworkMinSupport)|
    ensures var nodes := Nodes(Singles(rows, cols, NetworkMinSupport), |rows| as real);
            nodes[k].count == Count(rows, [nodes[k].name])
  {
    var list := Singles(rows, cols, NetworkMinSupport);
    var s := list[k];
    assert s in list;
    SinglesMembers(rows, cols, NetworkMinSupport, s);
    var a := s.items[0];
    assert s.items == [a];
    TitleCountIsCount(rows, [a]);
  }

  /** There is a node for a column exactly when the column's support reaches
      the threshold. */
  lemma NodeMeaning(t: Table, colors: ColorMap, a: string)
    requires CreateNetwork(t, colors).Ok? && |t.rows| > 0
    ensures (exists k :: 0 <= k < |CreateNetwork(t, colors).value.nodes| && CreateNetwork(t, colors).value.nodes[k].name == a)
            <==> a in t.columns && Support(t.rows, [a]) >= NetworkMinSupport
  {
    NetworkParts(t, colors);
    NodesOfSingles(t.rows, t.columns, a);
  }

  /** A node's title count `int(support * rows)` is its column's row count. */
  lemma NodeCount(t: Table, colors: ColorMap, k: int)
    requires CreateNetwork(t, colors).Ok? && |t.rows| > 0
    requires 0 <= k < |CreateNetwork(t, colors).value.nodes|
    ensures CreateNetwork(t, colors).value.nodes[k].count == Count(t.rows, [CreateNetwork(t, colors).value.nodes[k].name])
  {
    NetworkParts(t, colors);
    NodeCountOfSingles(t.rows, t.columns, k);
  }

  /** `edge["support"] * rows > 1` holds exactly when at least two rows
      hold both members. */
  lemma EdgeThreshold(rows: seq<Row>, items: seq<string>)
    requires |rows| > 0
    ensures Scaled(Support(rows, items), |rows| as real) > 1.0 <==> Count(rows, items) >= 2
  {
  }

  /** An edge over the miner's list for a non-empty frame: its count is the
      number of rows holding both endpoints and at least two, its endpoints
      are a frequent column pair in column order. */
  lemma EdgeOfMined(rows: seq<Row>, cols: seq<string>, colors: ColorMap, e: Edge)
    requires |rows| > 0
    requires EndpointsListed(Singles(rows, cols, NetworkMinSupport) + Pairs(rows, cols, NetworkMinSupport),
                             Labels(Singles(rows, cols, NetworkMinSupport)))
    requires e in Edges(Singles(rows, cols, NetworkMinSupport) + Pairs(rows, cols, NetworkMinSupport),
                        Labels(Singles(rows, cols, NetworkMinSupport)), |rows| as real, colors)
    ensures e.count == Count(rows, [e.from, e.to]) >= 2
    ensures exists i, j :: 0 <= i < j < |cols| && cols[i] == e.from && cols[j] == e.to
    ensures Support(rows, [e.from, e.to]) >= NetworkMinSupport
  {
    var singles := Singles(rows, cols, NetworkMinSupport);
    var pairs := Pairs(rows, cols, NetworkMinSupport);
    var n := |rows| as real;
    EdgeOrigin(singles + pairs, Labels(singles), n, colors, e);
    var s :| s in singles + pairs && IsEdge(s, n) && s.items == [e.from, e.to] && s.support == e.support;
    assert s in pairs;
    PairsMembers(rows, cols, NetworkMinSupport, s);
    TitleCountIsCount(rows, s.items);
    EdgeThreshold(rows, s.items);
  }

  /** Every frequent column pair supported by two rows is an edge of the
      miner's list. */
  lemma MinedPairIsEdge(rows: seq<Row>, cols: seq<string>, colors: ColorMap, a: string, b: string)
    requires |rows| > 0
    requires EndpointsListed(Singles(rows, cols, NetworkMinSupport) + Pairs(rows, cols, NetworkMinSupport),
                             Labels(Singles(rows, cols, NetworkMinSupport)))
    requires exists i, j :: 0 <= i < j < |cols| && cols[i] == a && cols[j] == b
    requires Count(rows, [a, b]) >= 2 && Support(rows, [a, b]) >= NetworkMinSupport
    ensures exists e :: e in Edges(Singles(rows, cols, NetworkMinSupport) + Pairs(rows, cols, NetworkMinSupport),
                                   Labels(Singles(rows, cols, NetworkMinSupport)), |rows| as real, colors) &&
                        e.from == a && e.to == b
  {
    var singles := Singles(rows, cols, NetworkMinSupport);
    var pairs := Pairs(rows, cols, NetworkMinSupport);
    var n := |rows| as real;
    var s := Itemset([a, b], Support(rows, [a, b]));
    PairsMembers(rows, cols, NetworkMinSupport, s);
    assert s in singles + pairs;
    EdgeThreshold(rows, [a, b]);
    EdgeFromItemset(singles + pairs, Labels(singles), n, colors, s);
    var e :| e in Edges(singles + pairs, Labels(singles), n, colors) && s.items == [e.from, e.to];
    assert e.from == a && e.to == b;
  }

  /** An edge's title count is the number of rows holding both endpoints,
      and it is at least two. */
  lemma EdgeCount(t: Table, colors: ColorMap, e: Edge)
    requires CreateNetwork(t, colors).Ok? && |t.rows| > 0
    requires e in CreateNetwork(t, colors).value.edges
    ensures e.count == Count(t.rows, [e.from, e.to]) >= 2
  {
    NetworkParts(t, colors);
    EdgeOfMined(t.rows, t.columns, colors, e);
  }

  /** There is an edge from `a` to `b` exactly when `a` precedes `b` among the
      columns, at least two rows hold both, and the pair's support reaches
      the threshold. */
  lemma EdgeMeaning(t: Table, colors: ColorMap, a: string, b: string)
    requires CreateNetwork(t, colors).Ok? && |t.rows| > 0
    ensures (exists e :: e in CreateNetwork(t, colors).value.edges && e.from == a && e.to == b) <==>
            (exists i, j :: 0 <= i < j < |t.columns| && t.columns[i] == a && t.columns[j] == b) &&
            Count(t.rows, [a, b]) >= 2 && Support(t.rows, [a, b]) >= NetworkMinSupport
  {
    NetworkParts(t, colors);
    var edges := CreateNetwork(t, colors).value.edges;
    if exists e :: e in edges && e.from == a && e.to == b {
      var e :| e in edges && e.from == a && e.to == b;
      EdgeOfMined(t.rows, t.columns, colors, e);
    }
    if (exists i, j :: 0 <= i < j < |t.columns| && t.columns[i] == a && t.columns[j] == b) &&
       Count(t.rows, [a, b]) >= 2 && Support(t.rows, [a, b]) >= NetworkMinSupport {
      MinedPairIsEdge(t.rows, t.columns, colors, a, b);
    }
  }

  /** An edge's colour is the map's colour for its pair in either
      orientation: the last options row about the pair decides, and pairs no
      row mentions are "lightgrey". */
  lemma EdgeColorMeaningInNetwork(t: Table, options: seq<EdgeOption>, e: Edge)
    requires CreateNetwork(t, BuildColorMap(options)).Ok?
    requires e in CreateNetwork(t, BuildColorMap(options)).value.edges
    ensures e.color == GetEdgeColor(BuildColorMap(options), e.to, e.from)
    ensures e.color == (match LastTouching(options, e.from, e.to)
                        case Some(s) => s.color
                        case None => DefaultColor)
  {
    var colors := BuildColorMap(options);
    var items := Mine(t, NetworkMinSupport).value;
    MinedEndpointsAreNodes(t);
    EdgeOrigin(items, Labels(NodeList(items)), |t.rows| as real, colors, e);
    EdgeColorMeaning(options, e.from, e.to);
  }
}

=== FILE: rules.dfy ===
/**
  The pairwise association-rule table (`return_assoc_rules`,
  `network_tabular`).

  Every pair itemset `{a, b}` yields the two rules `a -> b` and `b -> a`, one
  right after the other. Each rule carries the supports of its antecedent,
  its consequent and the pair, the library's confidence, lift and leverage,
  the pointwise mutual information `ln(support / (antecedent support *
  consequent support))`, and the three supports scaled back to row counts by
  truncation. The table is sorted by co-occurrence count, largest first.

  The tabular view then keeps the rows at positions 0, 2, 4, ... to drop one
  orientation of each pair. That is right only when the two orientations of
  every pair are adjacent after the sort, which the sort does not promise
  when counts tie. `CanonicalDedup` keeps the first row of each unordered
  pair instead; it agrees with the as-written step whenever the adjacency
  holds and is correct without it.
 */
module Rules {
  import opened Tables
  import opened Itemsets

  /** `min_support=0.00001` in `network_tabular`. */
  const TabularMinSupport: real := 0.00001

  /** One row of the rule table; the antecedent and consequent are one-member
      itemsets, listed as sequences. */
  datatype Rule = Rule(
    antecedents: seq<string>,
    consequents: seq<string>,
    antecedentSupport: real,
    consequentSupport: real,
    support: real,
    confidence: real,
    lift: real,
    leverage: real,
    pmi: real,
    antecedentCount: int,
    consequentCount: int,
    coCount: int)

  /** The unordered pair a rule is about. */
  function Key(r: Rule): set<string> {
    (set x | x in r.antecedents) + (set x | x in r.consequents)
  }

  lemma SupportPositive(rows: seq<Row>, items: seq<string>)
    requires |rows| > 0 && Count(rows, items) > 0
    ensures Support(rows, items) > 0.0
  {
    var c := Count(rows, items) as real;
    var n := |rows| as real;
    assert c >= 1.0 && n >= 1.0;
    assert Support(rows, items) == c / n;
  }

  /** `x / y`. */
  function Ratio(x: real, y: real): real
    requires y != 0.0
  {
    x / y
  }

  /** `x * y`. */
  function Product(x: real, y: real): real {
    x * y
  }

  /** The rule `a -> c` from the pair itemset with support `pairSupport`. */
  function MakeRule(rows: seq<Row>, a: string, c: string, pairSupport: real, ln: real -> real): (r: Rule)
    requires |rows| > 0 && Count(rows, [a]) > 0 && Count(rows, [c]) > 0
    ensures r.antecedents == [a] && r.consequents == [c] && r.support == pairSupport
  {
    SupportPositive(rows, [a]);
    SupportPositive(rows, [c]);
    var n := |rows| as real;
    var sa := Support(rows, [a]);
    var sc := Support(rows, [c]);
    var confidence := Ratio(pairSupport, sa);
    Rule([a], [c], sa, sc, pairSupport, confidence, Ratio(confidence, sc), pairSupport - Product(sa, sc),
         ln(Ratio(pairSupport, Product(sa, sc))), Truncate(Scaled(sa, n)), Truncate(Scaled(sc, n)), Truncate(Scaled(pairSupport, n)))
  }

  /** Every member of a pair itemset occurs in some row, so the rule metrics
      are defined. */
  predicate MembersOccur(rows: seq<Row>, items: seq<Itemset>) {
    forall s :: s in items && |s.items| == 2 ==> Count(rows, [s.items[0]]) > 0 && Count(rows, [s.items[1]]) > 0
  }

  /** `association_rules(frequent_itemsets, min_threshold=0)` for itemsets of
      at most two members: both orientations of each pair, in itemset order. */
  function GenerateRules(rows: seq<Row>, items: seq<Itemset>, ln: real -> real): (r: seq<Rule>)
    requires |rows| > 0 && MembersOccur(rows, items)
    ensures forall x :: x in r ==> |x.antecedents| == 1 && |x.consequents| == 1
  {
    if items == [] then []
    else
      var s := items[0];
      var rest := GenerateRules(rows, items[1..], ln);
      if |s.items| == 2 then
        var a, b := s.items[0], s.items[1];
        var x := MakeRule(rows, a, b, s.support, ln);
        var y := MakeRule(rows, b, a, s.support, ln);
        [x, y] + rest
      else rest
  }

  /** The generated rules are exactly the two orientations of every pair
      itemset, each built from the pair's support, and nothing else. */
  lemma {:induction false} GenerateRulesMembers(rows: seq<Row>, items: seq<Itemset>, ln: real -> real, x: Rule)
    requires |rows| > 0 && MembersOccur(rows, items)
    ensures x in GenerateRules(rows, items, ln) <==>
            exists s :: s in items && |s.items| == 2 &&
              (x == MakeRule(rows, s.items[0], s.items[1], s.support, ln) ||
               x == MakeRule(rows, s.items[1], s.items[0], s.support, ln))
    decreases |items|
  {
    if items != [] {
      var rest := items[1..];
      assert forall s :: s in items <==> s == items[0] || s in rest;
      GenerateRulesMembers(rows, rest, ln, x);
    }
  }

  /** A mined pair carries the support of the pair, at least the threshold. */
  lemma MinedPair(t: Table, minSupport: real, s: Itemset)
    requires Mine(t, minSupport).Ok? && |t.rows| > 0
    requires s in Mine(t, minSupport).value && |s.items| == 2
    ensures s.support == Support(t.rows, s.items) && s.support >= minSupport
  {
    SinglesMembers(t.rows, t.columns, minSupport, s);
    assert s in Pairs(t.rows, t.columns, minSupport);
    PairsMembers(t.rows, t.columns, minSupport, s);
  }

  /** Either orientation of a pair, built from the pair's support, carries
      the exact counts of its antecedent, its consequent and the pair. */
  lemma OrientationCounts(rows: seq<Row>, a: string, b: string, pairSupport: real, ln: real -> real, x: Rule)
    requires |rows| > 0 && Count(rows, [a]) > 0 && Count(rows, [b]) > 0
    requires pairSupport == Support(rows, [a, b])
    requires x == MakeRule(rows, a, b, pairSupport, ln) || x == MakeRule(rows, b, a, pairSupport, ln)
    ensures |x.antecedents| == 1 && |x.consequents| == 1
    ensures x.support == Support(rows, x.antecedents + x.consequents)
    ensures x.antecedentCount == Count(rows, x.antecedents)
    ensures x.consequentCount == Count(rows, x.consequents)
    ensures x.coCount == Count(rows, x.antecedents + x.consequents)
  {
    if x == MakeRule(rows, a, b, pairSupport, ln) {
      RuleCounts(rows, a, b, pairSupport, ln);
      assert x.antecedents + x.consequents == [a, b];
    } else {
      CountSameMembers(rows, [a, b], [b, a]);
      assert Support(rows, [a, b]) == Support(rows, [b, a]);
      RuleCounts(rows, b, a, pairSupport, ln);
      assert x.antecedents + x.consequents == [b, a];
    }
  }

  /** Every row of the rule table is about a frequent pair and carries the
      exact row counts of its antecedent, its consequent and the pair. */
  lemma RuleTableCounts(t: Table, minSupport: real, ln: real -> real, x: Rule)
    requires ReturnAssocRules(t, minSupport, ln).Ok?
    requires x in ReturnAssocRules(t, minSupport, ln).value
    ensures |x.antecedents| == 1 && |x.consequents| == 1
    ensures x.support == Support(t.rows, x.antecedents + x.consequents) && x.support >= minSupport
    ensures x.antecedentCount == Count(t.rows, x.antecedents)
    ensures x.consequentCount == Count(t.rows, x.consequents)
    ensures x.coCount == Count(t.rows, x.antecedents + x.consequents)
  {
    assert x in multiset(GenerateRules(t.rows, Mine(t, minSupport).value, ln));
    GeneratedRuleCounts(t, minSupport, ln, x);
  }

  /** `Rules.RuleTableCounts` for a rule as generated, before the sort. */
  lemma GeneratedRuleCounts(t: Table, minSupport: real, ln: real -> real, x: Rule)
    requires Mine(t, minSupport).Ok? && |t.rows| > 0 && MembersOccur(t.rows, Mine(t, minSupport).value)
    requires x in GenerateRules(t.rows, Mine(t, minSupport).value, ln)
    ensures |x.antecedents| == 1 && |x.consequents| == 1
    ensures x.support == Support(t.rows, x.antecedents + x.consequents) && x.support >= minSupport
    ensures x.antecedentCount == Count(t.rows, x.antecedents)
    ensures x.consequentCount == Count(t.rows, x.consequents)
    ensures x.coCount == Count(t.rows, x.antecedents + x.consequents)
  {
    var items := Mine(t, minSupport).value;
    GenerateRulesMembers(t.rows, items, ln, x);
    var s :| s in items && |s.items| == 2 &&
             (x == MakeRule(t.rows, s.items[0], s.items[1], s.support, ln) ||
              x == MakeRule(t.rows, s.items[1], s.items[0], s.support, ln));
    MinedPair(t, minSupport, s);
    assert s.items == [s.items[0], s.items[1]];
    OrientationCounts(t.rows, s.items[0], s.items[1], s.support, ln, x);
  }

  /** Whether the pair itemsets are distinct unordered pairs not in `seen`. */
  predicate DistinctPairs(items: seq<Itemset>, seen: set<set<string>>)
    decreases |items|
  {
    if items == [] then true
    else if |items[0].items| == 2 then
      var k := {items[0].items[0], items[0].items[1]};
      k !in seen && DistinctPairs(items[1..], seen + {k})
    else DistinctPairs(items[1..], seen)
  }

  /** Whether the rules come in adjacent blocks of two about the same pair,
      with no pair repeated and none in `seen`. */
  predicate AdjacentFrom(s: seq<Rule>, seen: set<set<string>>)
    decreases |s|
  {
    if s == [] then true
    else |s| >= 2 && Key(s[0]) == Key(s[1]) && Key(s[0]) !in seen && AdjacentFrom(s[2..], seen + {Key(s[0])})
  }

  /** The generated rules are adjacent with respect to `seen` exactly when
      the pairs are distinct with respect to it. */
  lemma {:induction false} GeneratedRulesAdjacent(rows: seq<Row>, items: seq<Itemset>, ln: real -> real, seen: set<set<string>>)
    requires |rows| > 0 && MembersOccur(rows, items)
    ensures AdjacentFrom(GenerateRules(rows, items, ln), seen) <==> DistinctPairs(items, seen)
    decreases |items|
  {
    if items != [] {
      var s := items[0];
      GeneratedRulesAdjacent(rows, items[1..], ln, seen);
      if |s.items| == 2 {
        var k := {s.items[0], s.items[1]};
        GeneratedRulesAdjacent(rows, items[1..], ln, seen + {k});
        var r := GenerateRules(rows, items, ln);
        assert Key(r[0]) == k && Key(r[1]) == k;
        assert r[2..] == GenerateRules(rows, items[1..], ln);
      }
    }
  }

  /** A rule's counts are the exact row counts of its antecedent, consequent
      and pair, and the pair count is at most either member count. */
  lemma RuleCounts(rows: seq<Row>, a: string, c: string, pairSupport: real, ln: real -> real)
    requires |rows| > 0 && Count(rows, [a]) > 0 && Count(rows, [c]) > 0
    requires pairSupport == Support(rows, [a, c])
    ensures var r := MakeRule(rows, a, c, pairSupport, ln);
            && r.antecedentCount == Count(rows, [a])
            && r.consequentCount == Count(rows, [c])
            && r.coCount == Count(rows, [a, c])
            && r.coCount <= r.antecedentCount && r.coCount <= r.consequentCount
  {
    TruncatedCount(rows, [a]);
    TruncatedCount(rows, [c]);
    TruncatedCount(rows, [a, c]);
    CountAntiMonotone(rows, [a], [a, c]);
    CountAntiMonotone(rows, [c], [a, c]);
  }

  /** A rule's lift is the ratio inside `pmi`, so `pmi` is the logarithm of
      the lift. */
  lemma RuleLiftIsPmiRatio(rows: seq<Row>, a: string, c: string, pairSupport: real, ln: real -> real)
    requires |rows| > 0 && Count(rows, [a]) > 0 && Count(rows, [c]) > 0
    ensures var r := MakeRule(rows, a, c, pairSupport, ln);
            && r.antecedentSupport > 0.0 && r.consequentSupport > 0.0
            && r.lift == Ratio(r.support, Product(r.antecedentSupport, r.consequentSupport))
            && r.pmi == ln(r.lift)
  {
    SupportPositive(rows, [a]);
    SupportPositive(rows, [c]);
    LiftIsRatio(pairSupport, Support(rows, [a]), Support(rows, [c]));
  }

  lemma LiftIsRatio(s: real, sa: real, sc: real)
    requires sa > 0.0 && sc > 0.0
    ensures Ratio(Ratio(s, sa), sc) == Ratio(s, Product(sa, sc))
  {
    assert s == (s / sa) * sa;
  }

  /** The two orientations of a pair agree on support, lift, leverage, `pmi`
      and co-occurrence count, and swap their member supports and counts. */
  lemma SwappedRulesAgree(rows: seq<Row>, a: string, c: string, pairSupport: real, ln: real -> real)
    requires |rows| > 0 && Count(rows, [a]) > 0 && Count(rows, [c]) > 0
    ensures var x := MakeRule(rows, a, c, pairSupport, ln);
            var y := MakeRule(rows, c, a, pairSupport, ln);
            && x.support == y.support && x.lift == y.lift && x.leverage == y.leverage && x.pmi == y.pmi
            && x.coCount == y.coCount
            && x.antecedentSupport == y.consequentSupport && x.consequentSupport == y.antecedentSupport
            && x.antecedentCount == y.consequentCount && x.consequentCount == y.antecedentCount
            && Key(x) == Key(y)
  {
    var sa := Support(rows, [a]);
    var sc := Support(rows, [c]);
    SupportPositive(rows, [a]);
    SupportPositive(rows, [c]);
    LiftIsRatio(pairSupport, sa, sc);
    LiftIsRatio(pairSupport, sc, sa);
    assert Product(sa, sc) == Product(sc, sa);
  }

  /** Members of a mined pair occur in some row, since the pair does. */
  lemma MinedMembersOccur(t: Table, minSupport: real)
    requires Mine(t, minSupport).Ok? && |t.rows| > 0
    ensures MembersOccur(t.rows, Mine(t, minSupport).value)
  {
    forall s | s in Mine(t, minSupport).value && |s.items| == 2
      ensures Count(t.rows, [s.items[0]]) > 0 && Count(t.rows, [s.items[1]]) > 0
    {
      assert s in Pairs(t.rows, t.columns, minSupport);
      PairsMembers(t.rows, t.columns, minSupport, s);
      CountOfFrequent(t.rows, s.items, minSupport);
      assert s.items == [s.items[0], s.items[1]];
      CountAntiMonotone(t.rows, [s.items[0]], s.items);
      CountAntiMonotone(t.rows, [s.items[1]], s.items);
    }
  }

  /** An itemset reaching a positive threshold occurs in some row. */
  lemma CountOfFrequent(rows: seq<Row>, items: seq<string>, minSupport: real)
    requires |rows| > 0 && minSupport > 0.0 && Support(rows, items) >= minSupport
    ensures Count(rows, items) > 0
  {
  }

  /** Whether co-occurrence counts never increase along the table. */
  predicate NonIncreasing(s: seq<Rule>) {
    forall i, j :: 0 <= i < j < |s| ==> s[i].coCount >= s[j].coCount
  }

  /** Inserts `x` before the first rule with a count not above its own. */
  function Insert(x: Rule, s: seq<Rule>): (r: seq<Rule>)
    requires NonIncreasing(s)
    ensures NonIncreasing(r)
    ensures multiset(r) == multiset(s) + multiset{x}
  {
    if s == [] || s[0].coCount <= x.coCount then [x] + s
    else
      assert s == [s[0]] + s[1..];
      var rest := Insert(x, s[1..]);
      InsertStep(x, s, rest);
      [s[0]] + rest
  }

  lemma InsertStep(x: Rule, s: seq<Rule>, rest: seq<Rule>)
    requires s != [] && NonIncreasing(s) && s[0].coCount > x.coCount
    requires NonIncreasing(rest) && multiset(rest) == multiset(s[1..]) + multiset{x}
    ensures NonIncreasing([s[0]] + rest)
  {
    forall y | y in rest
      ensures y.coCount <= s[0].coCount
    {
      assert y in multiset(rest);
      if y != x {
        assert y in s[1..];
      }
    }
    HeadBounds(s);
    ConsNonIncreasing(s[0], rest);
  }

  /** `sort_values(by="co-occurrence_count", ascending=False)`, as a stable
      insertion sort: one of the orders the library may produce. */
  function SortByCount(s: seq<Rule>): (r: seq<Rule>)
    ensures NonIncreasing(r)
    ensures multiset(r) == multiset(s)
  {
    if s == [] then []
    else
      assert s == [s[0]] + s[1..];
      Insert(s[0], SortByCount(s[1..]))
  }

  /** `return_assoc_rules(df, min_support, "co-occurrence_count", 2)`: the
      miner's error, `NoItemsets` when nothing is frequent, otherwise every
      generated rule in count order. */
  function ReturnAssocRules(t: Table, minSupport: real, ln: real -> real): (r: Result<seq<Rule>>)
    ensures r.Err? <==> Mine(t, minSupport).Err? || Mine(t, minSupport).value == []
    ensures r.Ok? ==> |t.rows| > 0 && MembersOccur(t.rows, Mine(t, minSupport).value)
    ensures r.Ok? ==> NonIncreasing(r.value) &&
                      multiset(r.value) == multiset(GenerateRules(t.rows, Mine(t, minSupport).value, ln))
  {
    var items :- Mine(t, minSupport);
    if items == [] then Err(NoItemsets)
    else
      MinedMembersOccur(t, minSupport);
      Ok(SortByCount(GenerateRules(t.rows, items, ln)))
  }

  /** `df_ar.iloc[::2]`: the rows at positions 0, 2, 4, ... */
  function KeepEverySecond(s: seq<Rule>): (r: seq<Rule>)
    ensures |r| == (|s| + 1) / 2
    ensures forall i :: 0 <= i < |r| ==> r[i] == s[2 * i]
  {
    if |s| <= 1 then s
    else
      var rest := KeepEverySecond(s[2..]);
      var r := [s[0]] + rest;
      assert |r| == (|s| + 1) / 2;
      assert forall i :: 1 <= i < |r| ==> r[i] == s[2 * i] by {
        forall i | 1 <= i < |r|
          ensures r[i] == s[2 * i]
        {
          assert r[i] == rest[i - 1];
          EveryOtherIndex(s, i - 1);
        }
      }
      r
  }

  lemma EveryOtherIndex(s: seq<Rule>, k: int)
    requires 2 <= |s| && 0 <= 2 * k < |s| - 2
    ensures s[2..][2 * k] == s[2 * (k + 1)]
  {
  }

  /** The first rule of each unordered pair not in `seen`, in table order. */
  function DedupFrom(s: seq<Rule>, seen: set<set<string>>): (r: seq<Rule>)
    ensures forall x :: x in r ==> x in s
    ensures forall i :: 0 <= i < |r| ==> Key(r[i]) !in seen
    ensures forall i, j :: 0 <= i < j < |r| ==> Key(r[i]) != Key(r[j])
  {
    if s == [] then []
    else if Key(s[0]) in seen then DedupFrom(s[1..], seen)
    else
      var rest := DedupFrom(s[1..], seen + {Key(s[0])});
      assert forall i :: 1 <= i < |rest| + 1 ==> ([s[0]] + rest)[i] == rest[i - 1];
      [s[0]] + rest
  }

  /** Keeps the first rule of each unordered pair: one orientation per pair
      whatever the order of equal counts. */
  function CanonicalDedup(s: seq<Rule>): (r: seq<Rule>)
    ensures forall x :: x in r ==> x in s
    ensures forall i, j :: 0 <= i < j < |r| ==> Key(r[i]) != Key(r[j])
  {
    DedupFrom(s, {})
  }

  /** Every pair of the table not in `seen` keeps a row. */
  lemma {:induction false} DedupCovers(s: seq<Rule>, seen: set<set<string>>, x: Rule)
    requires x in s && Key(x) !in seen
    ensures exists y :: y in DedupFrom(s, seen) && Key(y) == Key(x)
  {
    if s[0] == x {
      assert x in DedupFrom(s, seen);
    } else if Key(s[0]) in seen {
      DedupCovers(s[1..], seen, x);
    } else if Key(s[0]) == Key(x) {
      assert s[0] in DedupFrom(s, seen);
    } else {
      DedupCovers(s[1..], seen + {Key(s[0])}, x);
      var y :| y in DedupFrom(s[1..], seen + {Key(s[0])}) && Key(y) == Key(x);
      assert y in DedupFrom(s, seen);
    }
  }

  /** A rule whose count bounds every count of a table in count order can
      go in front of it. */
  lemma ConsNonIncreasing(x: Rule, rest: seq<Rule>)
    requires NonIncreasing(rest)
    requires forall y :: y in rest ==> y.coCount <= x.coCount
    ensures NonIncreasing([x] + rest)
  {
    var r := [x] + rest;
    forall i, j | 0 <= i < j < |r|
      ensures r[i].coCount >= r[j].coCount
    {
      assert r[j] == rest[j - 1];
      if i > 0 {
        assert r[i] == rest[i - 1];
      } else {
        assert rest[j - 1] in rest;
      }
    }
  }

  /** The first rule of a table in count order has the largest count. */
  lemma HeadBounds(s: seq<Rule>)
    requires s != [] && NonIncreasing(s)
    ensures NonIncreasing(s[1..])
    ensures forall y :: y in s[1..] ==> y.coCount <= s[0].coCount
  {
    forall y | y in s[1..]
      ensures y.coCount <= s[0].coCount
    {
      var k :| 0 <= k < |s[1..]| && s[1..][k] == y;
      assert s[k + 1] == y;
    }
  }

  /** Deduplication keeps the table in count order. */
  lemma {:induction false} DedupKeepsOrder(s: seq<Rule>, seen: set<set<string>>)
    requires NonIncreasing(s)
    ensures NonIncreasing(DedupFrom(s, seen))
  {
    if s != [] {
      HeadBounds(s);
      if Key(s[0]) in seen {
        DedupKeepsOrder(s[1..], seen);
      } else {
        var rest := DedupFrom(s[1..], seen + {Key(s[0])});
        DedupKeepsOrder(s[1..], seen + {Key(s[0])});
        ConsNonIncreasing(s[0], rest);
      }
    }
  }

  /** When the two orientations of every pair are adjacent, keeping every
      second row is the same as keeping the first row of each pair. */
  lemma {:induction false} KeepEverySecondIsDedup(s: seq<Rule>, seen: set<set<string>>)
    requires AdjacentFrom(s, seen)
    ensures KeepEverySecond(s) == DedupFrom(s, seen)
    decreases |s|
  {
    if s != [] {
      var k := Key(s[0]);
      KeepEverySecondIsDedup(s[2..], seen + {k});
      assert s[1..][1..] == s[2..];
      assert DedupFrom(s[1..], seen + {k}) == DedupFrom(s[2..], seen + {k});
    }
  }

  /** The as-written step under adjacency: one row per unordered pair, every
      pair of the table kept. */
  lemma AdjacentKeepsOnePerPair(s: seq<Rule>, x: Rule)
    requires AdjacentFrom(s, {}) && x in s
    ensures forall i, j :: 0 <= i < j < |KeepEverySecond(s)| ==> Key(KeepEverySecond(s)[i]) != Key(KeepEverySecond(s)[j])
    ensures exists y :: y in KeepEverySecond(s) && Key(y) == Key(x)
  {
    KeepEverySecondIsDedup(s, {});
    DedupCovers(s, {}, x);
  }

  /** The rules of two disjoint pairs `{A, B}` and `{C, D}` with equal
      counts, as generated. */
  function Generated(): seq<Rule> {
    [SampleRule("A", "B"), SampleRule("B", "A"), SampleRule("C", "D"), SampleRule("D", "C")]
  }

  /** The same rules in an order a sort by count may leave them in. */
  function Interleaved(): seq<Rule> {
    [Generated()[0], Generated()[2], Generated()[1], Generated()[3]]
  }

  lemma SampleKeys()
    ensures Key(Generated()[0]) == Key(Generated()[1]) == {"A", "B"}
    ensures Key(Generated()[2]) == Key(Generated()[3]) == {"C", "D"}
    ensures {"A", "B"} != {"C", "D"}
  {
    assert "A" in {"A", "B"} && "A" !in {"C", "D"};
  }

  lemma GeneratedAdjacent()
    ensures AdjacentFrom(Generated(), {})
  {
    SampleKeys();
    var g := Generated();
    assert g[2..][2..] == [];
    assert AdjacentFrom(g[2..], {{"A", "B"}});
  }

  lemma InterleavedAdmissible()
    ensures multiset(Interleaved()) == multiset(Generated()) && NonIncreasing(Interleaved())
  {
    var g := Generated();
    assert multiset(Interleaved()) == multiset{g[0], g[2], g[1], g[3]};
    assert multiset(g) == multiset{g[0], g[1], g[2], g[3]};
    assert forall i :: 0 <= i < 4 ==> Interleaved()[i].coCount == 2;
  }

  lemma InterleavedDedup()
    ensures CanonicalDedup(Interleaved()) == [Generated()[0], Generated()[2]]
  {
    SampleKeys();
    var s := Interleaved();
    var ab, cd := {"A", "B"}, {"C", "D"};
    assert s[3..] == [s[3]] && s[3..][1..] == [];
    assert DedupFrom(s[3..], {ab, cd}) == [];
    assert s[2..][1..] == s[3..];
    assert DedupFrom(s[2..], {ab, cd}) == [];
    assert s[1..][1..] == s[2..] && {ab} + {cd} == {ab, cd};
    assert DedupFrom(s[1..], {ab}) == [s[1]];
    assert {} + {ab} == {ab};
  }

  /** The as-written step fails once equal counts interleave two pairs: the
      rules of two disjoint pairs, as generated, are adjacent; an order the
      sort may leave them in keeps `{A, B}` twice and drops `{C, D}`, while
      `CanonicalDedup` keeps one row of each. */
  lemma KeepEverySecondCounterexample()
    ensures AdjacentFrom(Generated(), {})
    ensures multiset(Interleaved()) == multiset(Generated()) && NonIncreasing(Interleaved())
    ensures KeepEverySecond(Interleaved()) == [Generated()[0], Generated()[1]]
    ensures Key(Generated()[0]) == Key(Generated()[1])
    ensures forall y :: y in KeepEverySecond(Interleaved()) ==> Key(y) != Key(Generated()[2])
    ensures CanonicalDedup(Interleaved()) == [Generated()[0], Generated()[2]]
  {
    SampleKeys();
    GeneratedAdjacent();
    InterleavedAdmissible();
    InterleavedDedup();
    var s := Interleaved();
    assert KeepEverySecond(s) == [s[0], s[2]];
  }

  /** A rule with the given orientation and fixed metrics, for
      `KeepEverySecondCounterexample`. */
  function SampleRule(a: string, c: string): (r: Rule)
    ensures Key(r) == {a, c} && r.coCount == 2
  {
    Rule([a], [c], 0.5, 0.5, 0.5, 1.0, 2.0, 0.25, 0.0, 2, 2, 2)
  }

  /** The rule rows `network_tabular` keeps, with the first row of each
      unordered pair in place of every second row: one row per pair of the
      table, in count order. */
  function TabularRules(t: Table, ln: real -> real): (r: Result<seq<Rule>>)
    ensures r.Err? <==> ReturnAssocRules(t, TabularMinSupport, ln).Err?
    ensures r.Ok? ==> r.value == CanonicalDedup(ReturnAssocRules(t, TabularMinSupport, ln).value)
    ensures r.Ok? ==> NonIncreasing(r.value)
    ensures r.Ok? ==> forall i, j :: 0 <= i < j < |r.value| ==> Key(r.value[i]) != Key(r.value[j])
  {
    var rules :- ReturnAssocRules(t, TabularMinSupport, ln);
    DedupKeepsOrder(rules, {});
    Ok(CanonicalDedup(rules))
  }

  /** Every pair the rule table mentions keeps a row. */
  lemma TabularRulesCover(t: Table, ln: real -> real, x: Rule)
    requires ReturnAssocRules(t, TabularMinSupport, ln).Ok?
    requires x in ReturnAssocRules(t, TabularMinSupport, ln).value
    ensures exists y :: y in TabularRules(t, ln).value && Key(y) == Key(x)
  {
    DedupCovers(ReturnAssocRules(t, TabularMinSupport, ln).value, {}, x);
  }

  /** The rule rows `network_tabular` keeps as written: every second row of
      the sorted table. */
  function TabularRulesAsWritten(t: Table, ln: real -> real): (r: Result<seq<Rule>>)
    ensures r.Err? <==> ReturnAssocRules(t, TabularMinSupport, ln).Err?
    ensures r.Ok? ==> |r.value| == (|ReturnAssocRules(t, TabularMinSupport, ln).value| + 1) / 2
    ensures r.Ok? ==> forall i :: 0 <= i < |r.value| ==>
                        r.value[i] == ReturnAssocRules(t, TabularMinSupport, ln).value[2 * i]
  {
    var rules :- ReturnAssocRules(t, TabularMinSupport, ln);
    Ok(KeepEverySecond(rules))
  }

  /** The as-written and the corrected rows agree whenever the sort leaves
      the two orientations of every pair adjacent. */
  lemma AsWrittenAgreesWhenAdjacent(t: Table, ln: real -> real)
    requires ReturnAssocRules(t, TabularMinSupport, ln).Ok?
    requires AdjacentFrom(ReturnAssocRules(t, TabularMinSupport, ln).value, {})
    ensures TabularRulesAsWritten(t, ln) == TabularRules(t, ln)
  {
    KeepEverySecondIsDedup(ReturnAssocRules(t, TabularMinSupport, ln).value, {});
  }

  /** A cell of the rule table. */
  datatype Value = Label(text: string) | Whole(n: int) | Fraction(x: real)

  /** The columns of the rule table after renaming and unwrapping. */
  const RuleColumns: seq<string> := [
    "entity_1", "entity_2", "antecedent support", "consequent support", "support", "confidence",
    "lift", "leverage", "pmi", "entity_1_count", "entity_2_count", "co-occurrence_count"]

  /** A rule's cell in a column; `entity_1` and `entity_2` are the single
      members of the antecedent and consequent (`next(iter(row))`). */
  function Field(r: Rule, c: string): (v: Option<Value>)
    requires |r.antecedents| == 1 && |r.consequents| == 1
    ensures v.Some? <==> c in RuleColumns
  {
    if c == "entity_1" then Some(Label(r.antecedents[0]))
    else if c == "entity_2" then Some(Label(r.consequents[0]))
    else if c == "antecedent support" then Some(Fraction(r.antecedentSupport))
    else if c == "consequent support" then Some(Fraction(r.consequentSupport))
    else if c == "support" then Some(Fraction(r.support))
    else if c == "confidence" then Some(Fraction(r.confidence))
    else if c == "lift" then Some(Fraction(r.lift))
    else if c == "leverage" then Some(Fraction(r.leverage))
    else if c == "pmi" then Some(Fraction(r.pmi))
    else if c == "entity_1_count" then Some(Whole(r.antecedentCount))
    else if c == "entity_2_count" then Some(Whole(r.consequentCount))
    else if c == "co-occurrence_count" then Some(Whole(r.coCount))
    else None
  }

  type TabularRow = map<string, Value>

  /** `df_ar[cols_ar]` over the kept rules. */
  function Tabulate(rules: seq<Rule>, cols: seq<string>): (r: Result<seq<TabularRow>>)
    requires forall x :: x in rules ==> |x.antecedents| == 1 && |x.consequents| == 1
    ensures r.Ok? <==> forall c :: c in cols ==> c in RuleColumns
    ensures r.Err? ==> r.error == KeyError(Absent(cols, RuleColumns))
    ensures r.Ok? ==> |r.value| == |rules|
    ensures r.Ok? ==> forall i :: 0 <= i < |rules| ==> r.value[i].Keys == set c | c in cols
    ensures r.Ok? ==> forall i, c :: 0 <= i < |rules| && c in cols ==> Some(r.value[i][c]) == Field(rules[i], c)
  {
    var missing := Absent(cols, RuleColumns);
    if missing != [] then
      assert missing[0] in cols && missing[0] !in RuleColumns;
      Err(KeyError(missing))
    else
      Ok(seq(|rules|, i requires 0 <= i < |rules| => map c | c in cols :: Field(rules[i], c).value))
  }

  /** Generated and sorted rules have one-member antecedents and
      consequents. */
  lemma SortedRulesShape(t: Table, ln: real -> real)
    requires ReturnAssocRules(t, TabularMinSupport, ln).Ok?
    ensures forall x :: x in ReturnAssocRules(t, TabularMinSupport, ln).value ==> |x.antecedents| == 1 && |x.consequents| == 1
  {
    var gen := GenerateRules(t.rows, Mine(t, TabularMinSupport).value, ln);
    forall x | x in ReturnAssocRules(t, TabularMinSupport, ln).value
      ensures |x.antecedents| == 1 && |x.consequents| == 1
    {
      assert x in multiset(gen);
    }
  }

  /** `network_tabular(df, cols_ar)` with one row per unordered pair. */
  function NetworkTabular(t: Table, cols: seq<string>, ln: real -> real): (r: Result<seq<TabularRow>>)
    ensures r.Ok? <==> TabularRules(t, ln).Ok? && forall c :: c in cols ==> c in RuleColumns
    ensures r.Ok? ==> |r.value| == |TabularRules(t, ln).value|
    ensures r.Ok? ==> forall i :: 0 <= i < |r.value| ==> r.value[i].Keys == set c | c in cols
    ensures r.Ok? ==> forall i, c :: 0 <= i < |r.value| && c in cols ==>
                        |TabularRules(t, ln).value[i].antecedents| == 1 && |TabularRules(t, ln).value[i].consequents| == 1 &&
                        Some(r.value[i][c]) == Field(TabularRules(t, ln).value[i], c)
  {
    var rules :- TabularRules(t, ln);
    SortedRulesShape(t, ln);
    Tabulate(rules, cols)
  }

  /** The count columns of `network_tabular`'s table are the exact row counts
      of the row's entities and of their pair. */
  lemma NetworkTabularCounts(t: Table, cols: seq<string>, ln: real -> real, i: int)
    requires NetworkTabular(t, cols, ln).Ok? && 0 <= i < |NetworkTabular(t, cols, ln).value|
    requires "entity_1" in cols && "entity_2" in cols
    requires "entity_1_count" in cols && "entity_2_count" in cols && "co-occurrence_count" in cols
    ensures var row := NetworkTabular(t, cols, ln).value[i];
            && row["entity_1"].Label? && row["entity_2"].Label?
            && row["entity_1_count"] == Whole(Count(t.rows, [row["entity_1"].text]))
            && row["entity_2_count"] == Whole(Count(t.rows, [row["entity_2"].text]))
            && row["co-occurrence_count"] == Whole(Count(t.rows, [row["entity_1"].text, row["entity_2"].text]))
  {
    var row := NetworkTabular(t, cols, ln).value[i];
    var x := TabularRules(t, ln).value[i];
    KeptRuleCounts(t, ln, i);
    RowFields(row, x, cols);
  }

  /** A kept rule carries the exact counts of its two entities and of their
      pair. */
  lemma KeptRuleCounts(t: Table, ln: real -> real, i: int)
    requires TabularRules(t, ln).Ok? && 0 <= i < |TabularRules(t, ln).value|
    ensures var x := TabularRules(t, ln).value[i];
            && |x.antecedents| == 1 && |x.consequents| == 1
            && x.antecedentCount == Count(t.rows, [x.antecedents[0]])
            && x.consequentCount == Count(t.rows, [x.consequents[0]])
            && x.coCount == Count(t.rows, [x.antecedents[0], x.consequents[0]])
  {
    var x := TabularRules(t, ln).value[i];
    TabularRuleInTable(t, ln, i);
    RuleTableCounts(t, TabularMinSupport, ln, x);
    assert x.antecedents == [x.antecedents[0]] && x.consequents == [x.consequents[0]];
    assert x.antecedents + x.consequents == [x.antecedents[0], x.consequents[0]];
  }

  /** The entity and count cells of a tabulated row are its rule's. */
  lemma RowFields(row: TabularRow, x: Rule, cols: seq<string>)
    requires |x.antecedents| == 1 && |x.consequents| == 1
    requires forall c :: c in cols ==> c in row && Some(row[c]) == Field(x, c)
    requires "entity_1" in cols && "entity_2" in cols
    requires "entity_1_count" in cols && "entity_2_count" in cols && "co-occurrence_count" in cols
    ensures row["entity_1"] == Label(x.antecedents[0]) && row["entity_2"] == Label(x.consequents[0])
    ensures row["entity_1_count"] == Whole(x.antecedentCount)
    ensures row["entity_2_count"] == Whole(x.consequentCount)
    ensures row["co-occurrence_count"] == Whole(x.coCount)
  {
    assert Some(row["entity_1"]) == Field(x, "entity_1");
    assert Some(row["entity_2"]) == Field(x, "entity_2");
    assert Some(row["entity_1_count"]) == Field(x, "entity_1_count");
    assert Some(row["entity_2_count"]) == Field(x, "entity_2_count");
    assert Some(row["co-occurrence_count"]) == Field(x, "co-occurrence_count");
  }

  /** A kept rule row is a row of the rule table. */
  lemma TabularRuleInTable(t: Table, ln: real -> real, i: int)
    requires TabularRules(t, ln).Ok? && 0 <= i < |TabularRules(t, ln).value|
    ensures ReturnAssocRules(t, TabularMinSupport, ln).Ok?
    ensures TabularRules(t, ln).value[i] in ReturnAssocRules(t, TabularMinSupport, ln).value
  {
    assert TabularRules(t, ln).value[i] in TabularRules(t, ln).value;
  }

  /** `network_tabular(df, cols_ar)` as written, keeping every second row. */
  function NetworkTabularAsWritten(t: Table, cols: seq<string>, ln: real -> real): (r: Result<seq<TabularRow>>)
    ensures r.Ok? <==> TabularRules(t, ln).Ok? && forall c :: c in cols ==> c in RuleColumns
    ensures r.Ok? ==> |r.value| == (|ReturnAssocRules(t, TabularMinSupport, ln).value| + 1) / 2
    ensures r.Ok? ==> forall i :: 0 <= i < |r.value| ==> r.value[i].Keys == set c | c in cols
    ensures r.Ok? ==> forall i, c :: 0 <= i < |r.value| && c in cols ==>
                        var x := ReturnAssocRules(t, TabularMinSupport, ln).value[2 * i];
                        |x.antecedents| == 1 && |x.consequents| == 1 && Some(r.value[i][c]) == Field(x, c)
  {
    var rules :- TabularRulesAsWritten(t, ln);
    SortedRulesShape(t, ln);
    var all := ReturnAssocRules(t, TabularMinSupport, ln).value;
    assert forall i :: 0 <= i < |rules| ==> rules[i] in all by {
      forall i | 0 <= i < |rules|
        ensures rules[i] in all
      {
        assert rules[i] == all[2 * i];
      }
    }
    Tabulate(rules, cols)
  }
}

=== FILE: tables.dfy ===
/**
  Data frames as immutable values.

  A frame is an ordered list of column labels and a sequence of rows; a row
  maps each column label to a cell. A cell is a number, a text or missing
  (pandas' NaN). The frame operations every stage shares live here: cell
  lookup, column projection (`df[cols]`), boolean-mask selection (`df[mask]`)
  and predicate filtering, together with the error and result types.
 */
module Tables {

  /** One cell of a frame: missing (NaN), a number, or a text value. */
  datatype Cell = Missing | Num(n: int) | Text(s: string)

  type Row = map<string, Cell>

  datatype Table = Table(columns: seq<string>, rows: seq<Row>)

  /** The exceptions the modelled code can raise. */
  datatype Error =
    | KeyError(labels: seq<string>)   // indexing a frame by absent column labels
    | NotBinary(column: string)       // the itemset miner accepts only 0/1 cells
    | BadMinSupport                   // the itemset miner refuses min_support <= 0
    | NoItemsets                      // the rule generator refuses an empty itemset table
    | ObjectMask                      // `df[mask]` with a non-empty object-dtype mask: pandas reads
                                      // its values as column labels and raises `KeyError`

  datatype Option<+T> = None | Some(value: T)

  datatype Result<+T> = Ok(value: T) | Err(error: Error) {
    predicate IsFailure() {
      Err?
    }

    function PropagateFailure<U>(): Result<U>
      requires Err?
    {
      Err(error)
    }

    function Extract(): T
      requires Ok?
    {
      value
    }
  }

  predicate Distinct<T(==)>(s: seq<T>) {
    forall i, j :: 0 <= i < j < |s| ==> s[i] != s[j]
  }

  lemma SingletonMembers<T>(s: set<T>, v: T, w: T)
    requires |s| == 1 && v in s && w in s
    ensures v == w
  {
    var rest := s - {v};
    assert |rest| == |s| - |{v}|;
    assert rest == {};
    assert w !in rest;
  }

  function ColumnSet(t: Table): set<string> {
    set c | c in t.columns
  }

  /** Every row carries exactly the frame's columns, and no label repeats. */
  predicate WellFormed(t: Table) {
    && Distinct(t.columns)
    && forall i :: 0 <= i < |t.rows| ==> t.rows[i].Keys == ColumnSet(t)
  }

  /** The cell of a row under a label; a label the row lacks reads as missing. */
  function CellAt(row: Row, c: string): Cell {
    if c in row then row[c] else Missing
  }

  /** The labels of `labels` that are not columns, in their order: what a
      `KeyError` raised by `df[labels]` names. */
  function Absent(labels: seq<string>, columns: seq<string>): (r: seq<string>)
    ensures forall x :: x in r <==> x in labels && x !in columns
    ensures |r| <= |labels|
  {
    if labels == [] then []
    else (if labels[0] in columns then [] else [labels[0]]) + Absent(labels[1..], columns)
  }

  /** A single label is reported exactly when it is not a column. */
  lemma AbsentSingle(x: string, columns: seq<string>)
    ensures Absent([x], columns) == if x in columns then [] else [x]
  {
    assert [x][1..] == [];
  }

  /** The report for a concatenation is the two reports concatenated: with
      `AbsentSingle`, the absent labels come in the order the labels are
      given, each as often as it is given. */
  lemma {:induction false} AbsentAppend(a: seq<string>, b: seq<string>, columns: seq<string>)
    ensures Absent(a + b, columns) == Absent(a, columns) + Absent(b, columns)
    decreases |a|
  {
    if a == [] {
      assert a + b == b;
    } else {
      assert (a + b)[0] == a[0];
      assert (a + b)[1..] == a[1..] + b;
      AbsentAppend(a[1..], b, columns);
    }
  }

  /** A row cut down to the given labels. */
  function Restrict(row: Row, cols: seq<string>): (r: Row)
    ensures r.Keys == set c | c in cols
    ensures forall c :: c in cols ==> r[c] == CellAt(row, c)
  {
    map c | c in cols :: CellAt(row, c)
  }

  /** `df[cols]`: the frame restricted to `cols` in that order, or a
      `KeyError` naming every requested label that is not a column. */
  function Project(t: Table, cols: seq<string>): (r: Result<Table>)
    ensures r.Ok? <==> forall c :: c in cols ==> c in t.columns
    ensures r.Err? ==> r.error == KeyError(Absent(cols, t.columns)) && |r.error.labels| > 0
    ensures r.Ok? ==> r.value.columns == cols && |r.value.rows| == |t.rows|
    ensures r.Ok? ==> forall i, c :: 0 <= i < |t.rows| && c in cols ==>
                        CellAt(r.value.rows[i], c) == CellAt(t.rows[i], c)
    ensures r.Ok? && Distinct(cols) ==> WellFormed(r.value)
  {
    var missing := Absent(cols, t.columns);
    if missing != [] then
      assert missing[0] in cols && missing[0] !in t.columns;
      Err(KeyError(missing))
    else
      Ok(Table(cols, seq(|t.rows|, i requires 0 <= i < |t.rows| => Restrict(t.rows[i], cols))))
  }

  /** `df[mask]`: the rows whose mask entry is true, in their order. */
  function Select(rows: seq<Row>, mask: seq<bool>): (r: seq<Row>)
    requires |mask| == |rows|
    ensures |r| <= |rows|
    ensures forall x :: x in r ==> x in rows
  {
    if rows == [] then []
    else (if mask[0] then [rows[0]] else []) + Select(rows[1..], mask[1..])
  }

  /** The rows satisfying `p`, in their order: the reference meaning of every
      row filter in the model. */
  function Where(rows: seq<Row>, p: Row -> bool): (r: seq<Row>)
    ensures forall x :: x in r <==> x in rows && p(x)
    ensures |r| <= |rows|
  {
    if rows == [] then []
    else (if p(rows[0]) then [rows[0]] else []) + Where(rows[1..], p)
  }

  /** A mask computed row by row from `p` selects exactly the rows `p` keeps. */
  lemma {:induction false} SelectIsWhere(rows: seq<Row>, mask: seq<bool>, p: Row -> bool)
    requires |mask| == |rows|
    requires forall i :: 0 <= i < |rows| ==> mask[i] == p(rows[i])
    ensures Select(rows, mask) == Where(rows, p)
  {
    if rows != [] {
      SelectIsWhere(rows[1..], mask[1..], p);
    }
  }

  /** An all-true mask selects every row. */
  lemma {:induction false} SelectAllTrue(rows: seq<Row>, mask: seq<bool>)
    requires |mask| == |rows|
    requires forall i :: 0 <= i < |mask| ==> mask[i]
    ensures Select(rows, mask) == rows
  {
    if rows != [] {
      SelectAllTrue(rows[1..], mask[1..]);
    }
  }

  /** Filtering twice by the same predicate changes nothing. */
  lemma {:induction false} WhereIdempotent(rows: seq<Row>, p: Row -> bool)
    ensures Where(Where(rows, p), p) == Where(rows, p)
  {
    if rows != [] {
      WhereIdempotent(rows[1..], p);
      var w := Where(rows, p);
      if p(rows[0]) {
        assert w == [rows[0]] + Where(rows[1..], p);
        assert w[0] == rows[0] && w[1..] == Where(rows[1..], p);
        assert Where(w, p) == [rows[0]] + Where(w[1..], p);
      } else {
        assert w == Where(rows[1..], p);
      }
    }
  }

  /** A filter that every row passes keeps every row. */
  lemma {:induction false} WhereAll(rows: seq<Row>, p: Row -> bool)
    requires forall i :: 0 <= i < |rows| ==> p(rows[i])
    ensures Where(rows, p) == rows
  {
    if rows != [] {
      WhereAll(rows[1..], p);
    }
  }

  /** Filters that agree on every row give the same rows. */
  lemma {:induction false} WhereCongruent(rows: seq<Row>, p: Row -> bool, q: Row -> bool)
    requires forall i :: 0 <= i < |rows| ==> p(rows[i]) == q(rows[i])
    ensures Where(rows, p) == Where(rows, q)
  {
    if rows != [] {
      WhereCongruent(rows[1..], p, q);
    }
  }

  /** Filtering by `p` and then by `q` is filtering by both. */
  lemma {:induction false} WhereWhere(rows: seq<Row>, p: Row -> bool, q: Row -> bool)
    ensures Where(Where(rows, p), q) == Where(rows, x => p(x) && q(x))
  {
    if rows != [] {
      WhereWhere(rows[1..], p, q);
      var w := Where(rows, p);
      if p(rows[0]) {
        assert w == [rows[0]] + Where(rows[1..], p);
        assert w[0] == rows[0] && w[1..] == Where(rows[1..], p);
        assert Where(w, q) == (if q(rows[0]) then [rows[0]] else []) + Where(w[1..], q);
      } else {
        assert w == Where(rows[1..], p);
      }
    }
  }
}
